=== FILE: README.md ===
# Chat widget core — a Dafny model

This project models the decision logic of the support chat of a landing-page
site. The chat is a thin client over a hosted database. Its own logic lives in
three files:

- `src/services/chatService.ts`, the data gateway. It decides what kind of
  room `createChatRoom` makes. It runs find-then-insert for direct-message
  rooms and for the general "Support Chat" room. It bootstraps a test admin
  profile, sends messages and looks up message authors.
- `src/components/chat/ChatWidget.tsx`, the widget. It holds the open and
  minimised flags, the rooms shown for the user's role, the room it selects
  by itself, the history and author cache of the active room, messages
  delivered live, the send handler, and the initials shown for an author.
- `src/components/chat/ChatRoomList.tsx`, the room list. It holds the
  create-room form and highlights the active room.

The three hosted tables (`chat_rooms`, `chat_messages`, `profiles`) become the
sequences of a `Store`. An insert appends to a sequence. A `limit(1)`
existence query returns the first matching element in store order. The
columns the server generates (id, `created_at`) come in as a `Stamp`. Which
round-trips of a call fail comes in as `Faults`. The signed-in account comes
in as an `Option<AuthUser>`. Everything is a pure function over immutable
records.

Modules: `Common` (Option/Result, order-preserving `Filter`, `Dedup`,
first-match `Find`), `Text` (JavaScript `trim`, `split(" ")`, `join`,
upper-casing, `split('@')[0]`), `ChatTypes` (records, store, `CallEnv`),
`ChatService`, `ChatWidget` and `ChatRoomList`.

Modelling assumptions and behaviour worth knowing:

- The direct-room existence query chains two `.or(...)` filters. The query
  layer ANDs separate filters, so a room matches when it involves both
  parties. "Involves" means the party is `created_by` or `created_for`
  (`ChatService.IsDirectRoomOf`). This is an assumption about the query
  layer.
- `!activeRoomId` is true for `null` and for the empty string. This is
  `ChatTypes.IsSet`.
- `maybeSingle()` reports more than one matching row as an error. So
  `getChatUser` yields null for it, and the admin bootstrap stops without a
  change.
- `trim()` strips the ECMAScript WhiteSpace and LineTerminator code points.
- The widget checks its own session user. The service asks the
  authentication service again. Both are separate inputs, because they can
  disagree.
- The direct route of `createChatRoom` can return an existing room with any
  name. Any room that involves both ids matches, including a user's own rooms
  when the two ids coincide.
- A room name typed into the list that is 36 characters long and contains
  '-' is treated as a user id. When every request succeeds and no room
  involves both ids, it opens an "Admin Support" room targeted at that text
  (`ChatRoomList.IdShapedNameOpensDirectRoom`). Whether the database accepts
  arbitrary text in the `created_by.eq.`/`created_for.eq.` filters is not
  visible in the code; the model assumes it does.
- The bootstrap's "user is already an admin" branch cannot be taken. It is
  only reached after no admin profile was found
  (`ChatService.BootstrapAdminBranchUnreachable`).
- A failed rooms request leaves the old rooms in place. A failed history request after
  switching rooms leaves the previous room's messages on screen
  (`ChatWidget.SwitchWithFailedHistoryKeepsMessages`). Closing the widget
  only changes the two visibility flags.
- The room list is rendered only when no room is active. So its highlight
  can never fall on a room with a non-empty id
  (`ChatWidget.RoomListHighlightsNothing`).

## Model

| member | source | states |
|---|---|---|
| Common.Filter | src/components/chat/ChatWidget.tsx:59-61 | the kept elements are exactly those satisfying the test, each with its original multiplicity, in original relative order |
| Common.FindIndex | src/components/chat/ChatWidget.tsx:46 | the index found satisfies the test and no earlier element does; none is found only when no element satisfies it |
| Common.Find | src/components/chat/ChatWidget.tsx:46 | the element found is the first element satisfying the test (none before it does); none is found iff no element satisfies it |
| Common.FindIsFilterHead | src/components/chat/ChatWidget.tsx:79-81 | taking `filter(...)[0]` gives the first matching element, and nothing exactly when nothing matches |
| Common.Dedup | src/components/chat/ChatWidget.tsx:107 | `Array.from(new Set(ids))` holds exactly the ids of the input, with no repetition |
| Common.DistinctCardinality | src/components/chat/ChatWidget.tsx:107 | a repetition-free list has as many entries as distinct values |
| Text.TrimStart | src/components/chat/ChatRoomList.tsx:29 | the result is a suffix of the input, everything removed is white space, and it does not start with white space |
| Text.TrimEnd | src/components/chat/ChatRoomList.tsx:29 | the result is a prefix of the input, everything removed is white space, and it does not end with white space |
| Text.Trim | src/components/chat/ChatWidget.tsx:173 | the result is a middle stretch `s[i..j]` with only white space before `i` and from `j` on, and it neither starts nor ends with white space |
| Text.BlankIffAllSpace | src/components/chat/ChatRoomList.tsx:29 | `!s.trim()` holds exactly when every character of `s` is white space |
| Text.SplitOnSpace | src/components/chat/ChatWidget.tsx:195 | `split(" ")` yields at least one piece and no piece contains a space |
| Text.JoinSplit | src/components/chat/ChatWidget.tsx:195 | joining the pieces of `split(" ")` with spaces gives back the string |
| Text.SplitJoin | src/components/chat/ChatWidget.tsx:195 | splitting a join of space-free pieces gives back the pieces |
| Text.SplitWithoutSpace | src/components/chat/ChatWidget.tsx:195 | a string without spaces splits into itself alone |
| Text.SplitAfterPiece | src/components/chat/ChatWidget.tsx:195 | a space-free piece followed by a space splits off as the first piece |
| Text.FirstChars | src/components/chat/ChatWidget.tsx:196-197 | `.map(part => part[0]).join("")` has at most one character per part, each the first character of a non-empty part; when no part is empty it is exactly the parts' first characters, in order |
| Text.FirstCharsOfSplit | src/components/chat/ChatWidget.tsx:194-197 | the first characters of the pieces, empty pieces contributing nothing, are exactly the characters that start a word |
| Text.WordStartsShape | src/components/chat/ChatWidget.tsx:194-197 | word starts are never spaces and never outnumber the characters |
| Text.UpperChar | src/components/chat/ChatWidget.tsx:198 | an ASCII lower-case letter becomes its capital; every other character is unchanged |
| Text.Upper | src/components/chat/ChatWidget.tsx:198 | upper-casing keeps the length and maps each character independently |
| Text.Prefix | src/components/chat/ChatWidget.tsx:199 | `substring(0, n)` is a prefix of length min(n, length) |
| Text.BeforeAt | src/services/chatService.ts:45 | `split('@')[0]` is a prefix without '@' that ends at the first '@' when there is one |
| ChatService.ProfilesWithId | src/services/chatService.ts:28-32 | the rows returned are exactly the profiles with that id, each as often as it occurs in the table |
| ChatService.OnlyRowWithId | src/services/chatService.ts:28-32 | when one profile has the id, the query returns exactly that profile |
| ChatService.NoRowWithId | src/services/chatService.ts:28-32 | when no profile has the id, the query returns nothing |
| ChatService.BootstrapName | src/services/chatService.ts:45 | the new admin's name is the e-mail's local part, or "Test Admin" when that is empty or there is no e-mail; it is never empty |
| ChatService.Promote | src/services/chatService.ts:56-59 | the role update makes every row with the id an admin and changes no other row or column |
| ChatService.CreateTestAdminIfNeeded | src/services/chatService.ts:6-73 | the bootstrap adds at most one profile, appending it, or keeps the number of profiles; a failing query or write, or several profiles with the user's id, leaves the profiles exactly as they were |
| ChatService.BootstrapKeepsExisting | src/services/chatService.ts:8-26 | nothing changes when an admin exists or nobody is signed in |
| ChatService.BootstrapInsertsProfile | src/services/chatService.ts:39-47 | a user without a profile gets one appended, with the admin role and the bootstrap name |
| ChatService.BootstrapPromotesProfile | src/services/chatService.ts:54-59 | a user's single non-admin profile gets the admin role and nothing else changes |
| ChatService.BootstrapAdminBranchUnreachable | src/services/chatService.ts:66-68 | when no admin exists, the user's profile is not an admin, so the "already admin" branch is dead |
| ChatService.BootstrapEstablishesAdmin | src/services/chatService.ts:6-73 | without failures, and with at most one profile for the user, an admin exists afterwards |
| ChatService.FetchAdmins | src/services/chatService.ts:89-106 | the bootstrap runs first and its write stays saved even when the admin query then throws; on success the result lists exactly the projections of the admin profiles after it |
| ChatService.Project | src/services/chatService.ts:96 | entry `i` of the projection is the projection of row `i`, so there is one entry per row, in row order |
| ChatService.FetchAdminsFindsOne | src/services/chatService.ts:89-106 | when no request fails, a signed-in user with at most one profile gets a non-empty admin list |
| ChatService.FetchUsers | src/services/chatService.ts:108-122 | the result lists exactly the projections of the profiles whose role is "user"; a failing query throws |
| ChatService.CreateDirectMessageRoom | src/services/chatService.ts:124-185 | fails with NotSignedIn whatever the store does when nobody is signed in; a returned room involves both parties and is in the store, which at most gained that room; a failing existence query throws, and so does a failing insert when no room matched |
| ChatService.DirectReturnsExisting | src/services/chatService.ts:134-149 | the first room involving both parties is returned and the store is unchanged |
| ChatService.DirectInsertsOne | src/services/chatService.ts:151-184 | with no such room, exactly one "Admin Support" room is appended: created by the user, for the other id, tagged with the flag |
| ChatService.DirectFlagOnlyTags | src/services/chatService.ts:156-166 | both values of the initiator flag give the same name, creator and target |
| ChatService.DirectIdempotent | src/services/chatService.ts:134-175 | asking twice returns the same room, and the second call leaves the store unchanged |
| ChatService.DirectRoomShared | src/services/chatService.ts:137-138 | the other party asking for a direct room with the user gets the same room |
| ChatService.CreateGeneralSupportRoom | src/services/chatService.ts:188-228 | fails with NotSignedIn when nobody is signed in; returns a "Support Chat" room of the user; a new one has no target; a failing existence query throws, and so does a failing insert when no room matched |
| ChatService.SupportReturnsExisting | src/services/chatService.ts:194-210 | the user's first existing "Support Chat" room is returned and the store is left unchanged |
| ChatService.SupportIdempotent | src/services/chatService.ts:194-227 | a second request returns the same room and writes nothing, so two requests add at most one room |
| ChatService.CreateNamedRoom | src/services/chatService.ts:237-257 | fails with NotSignedIn when nobody is signed in; otherwise appends one room with exactly the given name, created by the user, with no target |
| ChatService.RouteOf | src/services/chatService.ts:233-237 | the direct, support and named routes are taken exactly for id-shaped text, for "Support Chat", and for anything else; they are exclusive and exhaustive |
| ChatService.CreateChatRoom | src/services/chatService.ts:231-258 | every route fails with NotSignedIn when nobody is signed in; on success at most the returned room was appended |
| ChatService.CreateChatRoomRoutes | src/services/chatService.ts:231-258 | id-shaped text yields a direct room with that id; "Support Chat" yields the user's support room; other text appends a room with that name |
| ChatService.SendChatMessage | src/services/chatService.ts:275-297 | fails with NotSignedIn when nobody is signed in; on success appends one message with the room, the unmodified content and the signed-in user |
| ChatService.FetchChatMessages | src/services/chatService.ts:260-273 | the history holds every message of the room, each with its multiplicity, in store order, and nothing else |
| ChatService.HistoryAfterAppend | src/services/chatService.ts:260-273 | an appended message extends its own room's history at the end and leaves other rooms' histories alone |
| ChatService.SendThenFetch | src/services/chatService.ts:275-289 | after a successful send, the room's history is the old one plus the new message |
| ChatService.GetChatUser | src/services/chatService.ts:299-313 | yields a user exactly when the query succeeds with one row; that user is the projection of a profile with the id; errors become null |
| ChatService.GetChatUserFindsUnique | src/services/chatService.ts:299-313 | a profile with a unique id is found |
| ChatService.GetChatUserMissing | src/services/chatService.ts:299-313 | a missing profile reads as null |
| ChatWidget.InitialVisibility | src/components/chat/ChatWidget.tsx:28-29 | the window starts shown exactly when `initialOpen` is set; a closed start is minimised |
| ChatWidget.ToggleChat | src/components/chat/ChatWidget.tsx:203-210 | a closed widget opens with the window shown; an open one stays open and flips only the minimised flag |
| ChatWidget.CloseChat | src/components/chat/ChatWidget.tsx:213-216 | closing leaves the widget closed, minimised and hidden |
| ChatWidget.ApplyInitialOpen | src/components/chat/ChatWidget.tsx:233-238 | a true prop shows the window; a false one changes nothing |
| ChatWidget.RunKeepsInv | src/components/chat/ChatWidget.tsx:203-238 | toggling, closing and the prop effect keep a closed widget minimised |
| ChatWidget.ReachableVisibility | src/components/chat/ChatWidget.tsx:203-247 | from the initial state, a closed widget is minimised, and the window is shown exactly when the widget is not minimised |
| ChatWidget.ToggleTwice | src/components/chat/ChatWidget.tsx:203-210 | while open, two toggles restore the state |
| ChatWidget.ToggleFromClosed | src/components/chat/ChatWidget.tsx:203-210 | from closed, one toggle shows the window and a second minimises it |
| ChatWidget.CloseIdempotent | src/components/chat/ChatWidget.tsx:213-216 | closing twice is closing once |
| ChatWidget.InitialWidget | src/components/chat/ChatWidget.tsx:28-38 | the widget starts loading, not sending, with no active room, and with consistent visibility flags |
| ChatWidget.ScreenOf | src/components/chat/ChatWidget.tsx:240-258 | nothing is rendered without a user; the conversation is shown iff the window is shown and a room is active; the room list iff the window is shown and none is |
| ChatWidget.ActiveRoom | src/components/chat/ChatWidget.tsx:46 | the active room is the first loaded room with the active id, and none is found only when no loaded room has that id |
| ChatWidget.HeaderTitle | src/components/chat/ChatWidget.tsx:271 | the header is the active room's name whenever that room is found and its name is non-empty, and "Chat" otherwise; it is never empty |
| ChatWidget.VisibleRooms | src/components/chat/ChatWidget.tsx:57-66 | an admin sees the fetched list unchanged; a user sees exactly the fetched rooms created by or for them, with multiplicity, in fetched order |
| ChatWidget.AutoSelectRoom | src/components/chat/ChatWidget.tsx:78-87 | a room is selected only when rooms were fetched and none is active; it is then the first fetched room the role filter keeps, and none exactly when the filter keeps none |
| ChatWidget.AutoSelectIsFirstShown | src/components/chat/ChatWidget.tsx:78-84 | the selected room is the head of the shown list |
| ChatWidget.AuthorIds | src/components/chat/ChatWidget.tsx:107 | the author list has each message's author at its position |
| ChatWidget.MergeAuthors | src/components/chat/ChatWidget.tsx:120-130 | the merged cache keeps every old key; new lookups overwrite; untouched keys keep their values |
| ChatWidget.LoadMessages | src/components/chat/ChatWidget.tsx:101-117 | a successful load shows the room's history and changes only the messages and the cache; a failure changes nothing |
| ChatWidget.LoadMessagesAuthors | src/components/chat/ChatWidget.tsx:106-129 | after a load, every author of the history is cached with its lookup result, and earlier cached authors are kept |
| ChatWidget.OneLookupPerAuthor | src/components/chat/ChatWidget.tsx:107 | the ids looked up are repetition-free, one per distinct author |
| ChatWidget.DeliverLive | src/components/chat/ChatWidget.tsx:150-160 | a live message is appended; the earlier messages stay as a prefix; its author ends up cached; other cache entries are unchanged |
| ChatWidget.DeliverLiveLookup | src/components/chat/ChatWidget.tsx:154-160 | the author is looked up exactly when missing or cached as null; otherwise the result does not depend on the backend |
| ChatWidget.LoadRooms | src/components/chat/ChatWidget.tsx:49-98 | without a user nothing happens; otherwise loading ends and visibility and draft are untouched; a failed rooms request only ends loading |
| ChatWidget.LoadRoomsEffect | src/components/chat/ChatWidget.tsx:53-75 | the shown rooms are the role-filtered fetch; the contacts go to users for an admin and to admins otherwise; a failed contacts request only replaces the rooms and ends loading: contacts, selection, messages and author cache are kept |
| ChatWidget.LoadRoomsSelects | src/components/chat/ChatWidget.tsx:77-87 | the first shown room becomes active and its history is loaded, only when no room was active and some room is shown |
| ChatWidget.LoadRoomsSignedOut | src/components/chat/ChatWidget.tsx:50 | a signed-out widget loads nothing |
| ChatWidget.SelectRoom | src/components/chat/ChatWidget.tsx:140-144 | the clicked room becomes active and its history is shown when it loads; only the active id, the messages and the author cache change, and no cached author is dropped |
| ChatWidget.Back | src/components/chat/ChatWidget.tsx:267 | after the back button no room is active, so an open window shows the room list; rooms, messages, draft, contacts, cache and flags are kept |
| ChatWidget.SelectThenBack | src/components/chat/ChatWidget.tsx:249-267 | selecting a room in the open window shows the conversation; going back shows the room list with the same rooms |
| ChatWidget.SwitchWithFailedHistoryKeepsMessages | src/components/chat/ChatWidget.tsx:114-116 | a failing history request leaves the previous messages on screen |
| ChatWidget.RoomListHighlightsNothing | src/components/chat/ChatWidget.tsx:249-252 | the list is only rendered with no active room, so no room with a non-empty id is highlighted |
| ChatWidget.SendButton | src/components/chat/ChatWidget.tsx:351-354 | on the conversation screen a blank draft disables the button and the handler ignores it; an enabled button with an accepted write adds one message and clears the draft |
| ChatWidget.HandleSendMessage | src/components/chat/ChatWidget.tsx:172-189 | sending has ended afterwards unless nothing happened; only the draft and the sending flag change |
| ChatWidget.SendGuard | src/components/chat/ChatWidget.tsx:173 | no active room, a blank draft or no user means no change at all |
| ChatWidget.SendOutcome | src/components/chat/ChatWidget.tsx:175-188 | success stores one message with the untrimmed draft in the active room and clears the draft; failure keeps the draft and the store; sending ends either way |
| ChatWidget.SendShowsOneMessage | src/components/chat/ChatWidget.tsx:177 | after a successful send, the room's history has exactly one more message: the draft as typed, by the signed-in user |
| ChatWidget.GetInitials | src/components/chat/ChatWidget.tsx:192-200 | a missing or empty name gives "?"; any other name gives at most two characters |
| ChatWidget.InitialsAreWordStarts | src/components/chat/ChatWidget.tsx:194-199 | the initials are the upper-cased characters starting each word, in order, cut to two; never spaces; none for a name of only spaces |
| ChatWidget.AllSpacesHaveNoWordStarts | src/components/chat/ChatWidget.tsx:194-197 | a string of spaces has no word starts |
| ChatWidget.InitialsOfOneWord | src/components/chat/ChatWidget.tsx:194-199 | a single word gives its upper-cased first character |
| ChatRoomList.HandleCreateRoom | src/components/chat/ChatRoomList.tsx:27-50 | creation is over afterwards unless nothing happened; the name handed on is the draft; the refresh runs at most once |
| ChatRoomList.BlankSubmitIsNoOp | src/components/chat/ChatRoomList.tsx:29 | a blank name makes no call and changes nothing |
| ChatRoomList.SubmitOutcome | src/components/chat/ChatRoomList.tsx:31-49 | the untrimmed draft is passed on; success clears it and refreshes exactly once; failure keeps it and does not refresh; creation ends either way |
| ChatRoomList.SubmitNamedRoom | src/components/chat/ChatRoomList.tsx:34 | an ordinary name adds exactly one room carrying the name as typed |
| ChatRoomList.IdShapedNameOpensDirectRoom | src/components/chat/ChatRoomList.tsx:34 | when every request succeeds and no room involves both ids, a 36-character name with '-' opens an "Admin Support" room targeted at that text |
| ChatRoomList.EnabledSubmitCalls | src/components/chat/ChatRoomList.tsx:63-67 | when the button is enabled (not creating, non-blank name), submitting calls `createChatRoom` with the draft |
| ChatRoomList.AtMostOneHighlighted | src/components/chat/ChatRoomList.tsx:85 | a room is highlighted iff its id is the active one, so with distinct ids at most one is |

## Left out

- Marketing components and pages: pure layout.
- The database client: query building, the authentication lookup, and
  `.select().single()`. An inserted row is the row built from the `Stamp`. A
  failing call is a `Faults` flag.
- `fetchChatRooms`: a plain select of every room. Its response is the
  `fetched` input of `ChatWidget.LoadRooms`.
- Server-side ordering: rooms sorted by `created_at` descending, history
  ascending. Fetched rooms are an input in the order the server returns them.
  A history is kept in store order, which the model assumes is timestamp
  order.
- The real-time channel of `subscribeToMessages`, and tearing down and
  re-creating the subscription on room or cache change. A delivery is the
  `ChatWidget.DeliverLive` event.
- Concurrency: interleaving of network completions and live deliveries;
  the subscription callback reading a stale `userMap`, which the model
  replaces with the current cache; a second send by the Enter key while one
  is in flight (that path calls the same handler); the duplicate-room race
  between two clients.
- `formatMessageTime` (dates and locale), scrolling, focus, toasts, logging.
- `isAdmin` from the admin hook and the widget's session user: both are
  inputs.
- ChatWidget.LoadRooms: takes the contacts response as a `Result`. It does
  not call `ChatService.FetchAdmins`/`ChatService.FetchUsers`, which are
  modelled separately.
- ChatService.CreateTestAdminIfNeeded: its two queries share one failure
  flag. Either failure ends the bootstrap with no change, so they cannot be
  told apart.
- The `onRoomsUpdated` → `loadRooms` wiring: a submission counts the
  refreshes it triggers and does not run them.
- Text.Upper: upper-cases ASCII letters only. Full Unicode case mapping,
  which can change the length, is not modelled.
- Text.UpperChar: upper-cases ASCII letters only, one scalar value at a
  time; `toUpperCase` maps the full Unicode range.
- Text.FirstChars: takes the first Unicode scalar value of a part, whereas
  `part[0]` takes the first UTF-16 code unit, which is half of a character
  outside the Basic Multilingual Plane.
- ChatService.RouteOf: the 36-character test counts Unicode scalar values,
  whereas `length` counts UTF-16 code units; they agree for text in the
  Basic Multilingual Plane, which includes every UUID.
- Text.Prefix: lengths count Unicode scalar values, not UTF-16 code units,
  so `substring(0, 2)` and the 36-character test agree with JavaScript's
  `length` and `substring` only for text in the Basic Multilingual Plane.
- Common.Dedup: the contract states membership and distinctness but not
  first-occurrence order. The order of the lookups does not affect the
  merged cache.

=== FILE: chat_room_list.dfy ===
/** The room list: the create-room form (its draft guard, the outcome of a
    submission and when the button is disabled) and the highlight of the
    active room. */
module ChatRoomList {
  import opened Common
  import opened Text
  import opened ChatTypes
  import ChatService

  /** The form's state: the typed room name and whether a creation is in flight. */
  datatype FormState = FormState(draft: string, isCreating: bool)

  /** What one submission did: the form afterwards, the store afterwards, the
      name handed to `createChatRoom` (if it was called) and how many times
      the parent's `onRoomsUpdated` refresh was invoked. */
  datatype Submission = Submission(form: FormState, store: Store, requested: Option<string>, refreshes: nat)

  /** `handleCreateRoom`. */
  function HandleCreateRoom(f: FormState, store: Store, env: CallEnv): (s: Submission)
    ensures !s.form.isCreating || s.form == f
    ensures s.requested.Some? ==> s.requested.value == f.draft
    ensures s.refreshes <= 1
  {
    if IsBlank(f.draft) then Submission(f, store, None, 0)
    else
      match ChatService.CreateChatRoom(store, env, f.draft)
      case Success(created) => Submission(FormState("", false), created.1, Some(f.draft), 1)
      case Failure(_) => Submission(f.(isCreating := false), store, Some(f.draft), 0)
  }

  /** A blank name makes no call and changes nothing. */
  lemma BlankSubmitIsNoOp(f: FormState, store: Store, env: CallEnv)
    requires IsBlank(f.draft)
    ensures HandleCreateRoom(f, store, env) == Submission(f, store, None, 0)
  {
  }

  /** For a non-blank name: the untrimmed draft goes to `createChatRoom`; on
      success the draft is cleared, the refresh runs exactly once and the
      store is the one the service left; on failure the draft is kept, no
      refresh runs and the store is untouched. Creation has ended either way. */
  lemma SubmitOutcome(f: FormState, store: Store, env: CallEnv)
    requires !IsBlank(f.draft)
    ensures var s := HandleCreateRoom(f, store, env);
      var call := ChatService.CreateChatRoom(store, env, f.draft);
      && s.requested == Some(f.draft)
      && !s.form.isCreating
      && (call.Success? ==> s.form.draft == "" && s.refreshes == 1 && s.store == call.value.1)
      && (call.Failure? ==> s.form.draft == f.draft && s.refreshes == 0 && s.store == store)
  {
  }

  /** A signed-in user typing an ordinary name (not id-shaped, not the support
      room's name) gets exactly one new room carrying the name as typed. */
  lemma SubmitNamedRoom(f: FormState, store: Store, env: CallEnv)
    requires !IsBlank(f.draft)
    requires !ChatService.LooksLikeUserId(f.draft) && f.draft != ChatService.SupportRoomName
    requires env.auth.Some? && env.faults == NoFaults
    ensures var s := HandleCreateRoom(f, store, env);
      && s.refreshes == 1
      && |s.store.rooms| == |store.rooms| + 1
      && s.store.rooms[..|store.rooms|] == store.rooms
      && s.store.rooms[|store.rooms|].name == f.draft
      && s.store.rooms[|store.rooms|].createdBy == env.auth.value.id
  {
    ChatService.CreateChatRoomRoutes(store, env, f.draft);
  }

  /** A typed name of 36 characters containing '-' is taken for a user id: it
      opens a direct "Admin Support" room targeted at that text instead of a
      room with that name. */
  lemma IdShapedNameOpensDirectRoom(f: FormState, store: Store, env: CallEnv)
    requires !IsBlank(f.draft) && ChatService.LooksLikeUserId(f.draft)
    requires env.auth.Some? && env.faults == NoFaults
    requires forall room :: room in store.rooms ==> !ChatService.IsDirectRoomOf(room, env.auth.value.id, f.draft)
    ensures var s := HandleCreateRoom(f, store, env);
      && |s.store.rooms| == |store.rooms| + 1
      && s.store.rooms[|store.rooms|].name == ChatService.DirectRoomName
      && s.store.rooms[|store.rooms|].createdFor == Some(f.draft)
  {
    ChatService.DirectInsertsOne(store, env, f.draft, false);
  }

  /** The submit button is disabled while creating or for a blank name. */
  predicate SubmitDisabled(f: FormState) {
    f.isCreating || IsBlank(f.draft)
  }

  /** An enabled button always leads to a `createChatRoom` call. */
  lemma EnabledSubmitCalls(f: FormState, store: Store, env: CallEnv)
    requires !SubmitDisabled(f)
    ensures HandleCreateRoom(f, store, env).requested == Some(f.draft)
  {
  }

  /** A room is drawn highlighted when its id is the active one. */
  predicate IsHighlighted(room: Room, activeRoomId: Option<string>) {
    activeRoomId == Some(room.id)
  }

  /** With distinct room ids at most one room is highlighted. */
  lemma AtMostOneHighlighted(rooms: seq<Room>, activeRoomId: Option<string>, i: nat, j: nat)
    requires forall a, b :: 0 <= a < |rooms| && 0 <= b < |rooms| && a != b ==> rooms[a].id != rooms[b].id
    requires i < |rooms| && j < |rooms|
    requires IsHighlighted(rooms[i], activeRoomId) && IsHighlighted(rooms[j], activeRoomId)
    ensures i == j
  {
  }
}

=== FILE: chat_service.dfy ===
/** The decision logic of the chat data gateway over an in-memory store:
    which kind of room `createChatRoom` makes, find-then-insert for direct
    and support rooms, the test-admin bootstrap, sending a message, and the
    author lookup. Every call that needs a signed-in user fails before it
    consults the store when there is none. */
module ChatService {
  import opened Common
  import opened Text
  import opened ChatTypes

  const SupportRoomName: string := "Support Chat"
  const DirectRoomName: string := "Admin Support"
  const TestAdminName: string := "Test Admin"
  const AdminRole: string := "admin"
  const UserRole: string := "user"

  /** Length of the textual form of a UUID, the first half of the test that
      decides whether `createChatRoom` received a user id. */
  const UuidLength: nat := 36

  // ---------------------------------------------------------------------
  // Test-admin bootstrap
  // ---------------------------------------------------------------------

  predicate IsAdminProfile(p: Profile) {
    p.role == Some(AdminRole)
  }

  predicate AdminExists(profiles: seq<Profile>) {
    exists i :: 0 <= i < |profiles| && IsAdminProfile(profiles[i])
  }

  /** The rows a `.eq("id", id)` query returns. */
  function ProfilesWithId(profiles: seq<Profile>, id: string): (rows: seq<Profile>)
    ensures forall p :: p in rows <==> p in profiles && p.id == id
    ensures forall p :: multiset(rows)[p] == if p.id == id then multiset(profiles)[p] else 0
  {
    Filter(profiles, (p: Profile) => p.id == id)
  }

  /** `user.email?.split('@')[0] || 'Test Admin'`. */
  function BootstrapName(email: Option<string>): (name: string)
    ensures name != "" && '@' !in name
    ensures name == TestAdminName || (email.Some? && name <= email.value)
    ensures email.Some? && BeforeAt(email.value) != "" ==> name == BeforeAt(email.value)
  {
    match email
    case None => TestAdminName
    case Some(e) => if BeforeAt(e) == "" then TestAdminName else BeforeAt(e)
  }

  /** `update({ role: 'admin' }).eq("id", id)`: every row with that id gets the
      admin role; nothing else changes. */
  function Promote(profiles: seq<Profile>, id: string): (r: seq<Profile>)
    ensures |r| == |profiles|
    ensures forall i :: 0 <= i < |r| ==> r[i].id == profiles[i].id
    ensures forall i :: 0 <= i < |r| && profiles[i].id != id ==> r[i] == profiles[i]
    ensures forall i :: 0 <= i < |r| && profiles[i].id == id ==>
      r[i].role == Some(AdminRole) && r[i].fullName == profiles[i].fullName && r[i].avatarUrl == profiles[i].avatarUrl
  {
    if |profiles| == 0 then []
    else
      var head := if profiles[0].id == id then profiles[0].(role := Some(AdminRole)) else profiles[0];
      [head] + Promote(profiles[1..], id)
  }

  /** `createTestAdminIfNeeded`: when no admin profile exists, make the
      signed-in user one. Every failing round-trip is logged and ends the
      bootstrap with the profiles as they were; `maybeSingle` reports more
      than one row for the user as an error. */
  function CreateTestAdminIfNeeded(profiles: seq<Profile>, auth: Option<AuthUser>, faults: Faults): (r: seq<Profile>)
    ensures |profiles| <= |r| <= |profiles| + 1
    ensures r[..|profiles|] == profiles || |r| == |profiles|
    ensures faults.queryFails || faults.writeFails ==> r == profiles
    ensures auth.Some? && |ProfilesWithId(profiles, auth.value.id)| > 1 ==> r == profiles
  {
    if faults.queryFails || AdminExists(profiles) || auth.None? then profiles
    else
      var own := ProfilesWithId(profiles, auth.value.id);
      if |own| > 1 then profiles
      else if |own| == 0 then
        if faults.writeFails then profiles
        else profiles + [Profile(auth.value.id, Some(BootstrapName(auth.value.email)), None, Some(AdminRole))]
      else if !IsAdminProfile(own[0]) then
        if faults.writeFails then profiles else Promote(profiles, auth.value.id)
      else profiles
  }

  /** Nothing changes when an admin already exists or nobody is signed in. */
  lemma BootstrapKeepsExisting(profiles: seq<Profile>, auth: Option<AuthUser>, faults: Faults)
    requires AdminExists(profiles) || auth.None?
    ensures CreateTestAdminIfNeeded(profiles, auth, faults) == profiles
  {
  }

  /** A signed-in user without a profile gets a new admin profile named after
      the local part of the e-mail address, or "Test Admin". */
  lemma BootstrapInsertsProfile(profiles: seq<Profile>, u: AuthUser)
    requires !AdminExists(profiles)
    requires forall i :: 0 <= i < |profiles| ==> profiles[i].id != u.id
    ensures var r := CreateTestAdminIfNeeded(profiles, Some(u), NoFaults);
      && |r| == |profiles| + 1
      && r[..|profiles|] == profiles
      && r[|profiles|].id == u.id
      && r[|profiles|].role == Some(AdminRole)
      && r[|profiles|].fullName == Some(BootstrapName(u.email))
  {
    var own := ProfilesWithId(profiles, u.id);
    if |own| > 0 {
      assert own[0] in own;
    }
  }

  /** A signed-in user with one non-admin profile has exactly that profile's
      role upgraded; every other row and column stays as it was. */
  lemma BootstrapPromotesProfile(profiles: seq<Profile>, u: AuthUser, k: nat)
    requires !AdminExists(profiles)
    requires k < |profiles| && profiles[k].id == u.id
    requires forall i :: 0 <= i < |profiles| && i != k ==> profiles[i].id != u.id
    ensures var r := CreateTestAdminIfNeeded(profiles, Some(u), NoFaults);
      && |r| == |profiles|
      && (forall i :: 0 <= i < |r| && i != k ==> r[i] == profiles[i])
      && r[k] == profiles[k].(role := Some(AdminRole))
  {
    var own := ProfilesWithId(profiles, u.id);
    assert multiset(own)[profiles[k]] == multiset(profiles)[profiles[k]];
    assert multiset(profiles)[profiles[k]] >= 1 by {
      assert profiles[k] in profiles;
    }
    assert own == [profiles[k]] by {
      assert |own| <= 1 by {
        OnlyRowWithId(profiles, u.id, k);
      }
    }
  }

  /** The rows with a given id, when only row `k` has it. */
  lemma {:induction false} OnlyRowWithId(profiles: seq<Profile>, id: string, k: nat)
    requires k < |profiles| && profiles[k].id == id
    requires forall i :: 0 <= i < |profiles| && i != k ==> profiles[i].id != id
    ensures ProfilesWithId(profiles, id) == [profiles[k]]
  {
    if k == 0 {
      NoRowWithId(profiles[1..], id);
      assert profiles == [profiles[0]] + profiles[1..];
    } else {
      var tail := profiles[1..];
      forall i | 0 <= i < |tail| && i != k - 1 ensures tail[i].id != id {
        assert tail[i] == profiles[i + 1];
      }
      OnlyRowWithId(tail, id, k - 1);
      assert profiles[0].id != id;
    }
  }

  lemma {:induction false} NoRowWithId(profiles: seq<Profile>, id: string)
    requires forall i :: 0 <= i < |profiles| ==> profiles[i].id != id
    ensures ProfilesWithId(profiles, id) == []
  {
    if |profiles| > 0 {
      NoRowWithId(profiles[1..], id);
    }
  }

  /** The "already an admin" branch cannot be taken: the bootstrap only looks
      at the user's profile after finding no admin profile at all. */
  lemma BootstrapAdminBranchUnreachable(profiles: seq<Profile>, u: AuthUser)
    requires !AdminExists(profiles)
    ensures forall p :: p in ProfilesWithId(profiles, u.id) ==> !IsAdminProfile(p)
  {
  }

  /** Without failures and with at most one profile for the signed-in user,
      an admin exists afterwards. */
  lemma BootstrapEstablishesAdmin(profiles: seq<Profile>, u: AuthUser)
    requires |ProfilesWithId(profiles, u.id)| <= 1
    ensures AdminExists(CreateTestAdminIfNeeded(profiles, Some(u), NoFaults))
  {
    var r := CreateTestAdminIfNeeded(profiles, Some(u), NoFaults);
    if !AdminExists(profiles) {
      var own := ProfilesWithId(profiles, u.id);
      if |own| == 0 {
        assert IsAdminProfile(r[|profiles|]);
      } else {
        assert own[0] in profiles;
        var k :| 0 <= k < |profiles| && profiles[k] == own[0];
        assert IsAdminProfile(r[k]);
      }
    }
  }

  /** `fetchAdmins`: run the bootstrap, then list the admin profiles. The
      bootstrap's write is saved before the admin query runs, so the profiles
      afterwards are the bootstrapped ones whether or not that query throws. */
  function FetchAdmins(profiles: seq<Profile>, auth: Option<AuthUser>, bootstrapFaults: Faults, queryFails: bool)
    : (r: (Result<seq<ChatUser>, ChatError>, seq<Profile>))
    ensures queryFails <==> r.0.Failure?
    ensures r.1 == CreateTestAdminIfNeeded(profiles, auth, bootstrapFaults)
    ensures r.0.Success? ==> |r.0.value| <= |r.1|
    ensures r.0.Success? ==> forall c :: c in r.0.value <==>
      exists p :: p in r.1 && IsAdminProfile(p) && c == ToChatUser(p)
  {
    var after := CreateTestAdminIfNeeded(profiles, auth, bootstrapFaults);
    if queryFails then (Failure(StoreError), after)
    else (Success(Project(Filter(after, IsAdminProfile))), after)
  }

  /** The `select("id, full_name, avatar_url")` projection of some rows. */
  function Project(rows: seq<Profile>): (r: seq<ChatUser>)
    ensures |r| == |rows|
    ensures forall p :: p in rows ==> ToChatUser(p) in r
    ensures forall c :: c in r ==> exists p :: p in rows && c == ToChatUser(p)
    ensures forall i :: 0 <= i < |rows| ==> r[i] == ToChatUser(rows[i])
  {
    if |rows| == 0 then [] else [ToChatUser(rows[0])] + Project(rows[1..])
  }

  /** When no request fails, any signed-in user with at most one profile
      finds an admin. */
  lemma FetchAdminsFindsOne(profiles: seq<Profile>, u: AuthUser)
    requires |ProfilesWithId(profiles, u.id)| <= 1
    ensures var r := FetchAdmins(profiles, Some(u), NoFaults, false);
      r.0.Success? && |r.0.value| > 0
  {
    BootstrapEstablishesAdmin(profiles, u);
    var after := CreateTestAdminIfNeeded(profiles, Some(u), NoFaults);
    var i :| 0 <= i < |after| && IsAdminProfile(after[i]);
    assert after[i] in Filter(after, IsAdminProfile);
  }

  predicate IsUserProfile(p: Profile) {
    p.role == Some(UserRole)
  }

  /** `fetchUsers`: the profiles whose role is "user". */
  function FetchUsers(profiles: seq<Profile>, queryFails: bool): (r: Result<seq<ChatUser>, ChatError>)
    ensures queryFails <==> r.Failure?
    ensures r.Success? ==> forall c :: c in r.value <==>
      exists p :: p in profiles && p.role == Some(UserRole) && c == ToChatUser(p)
  {
    if queryFails then Failure(StoreError)
    else Success(Project(Filter(profiles, IsUserProfile)))
  }

  // ---------------------------------------------------------------------
  // Room creation
  // ---------------------------------------------------------------------

  /** The existence query of `createDirectMessageRoom`. Its two `.or(...)`
      filters are separate filters, which the query layer combines with AND:
      the room involves both parties. */
  predicate IsDirectRoomOf(room: Room, a: string, b: string) {
    Involves(room, a) && Involves(room, b)
  }

  /** The existence query of `createGeneralSupportRoom`. */
  predicate IsSupportRoomOf(room: Room, u: string) {
    room.createdBy == u && room.name == SupportRoomName
  }

  /** The two existence queries as row tests. */
  function DirectQuery(a: string, b: string): Room -> bool {
    (room: Room) => IsDirectRoomOf(room, a, b)
  }

  function SupportQuery(u: string): Room -> bool {
    (room: Room) => IsSupportRoomOf(room, u)
  }

  /** The `.eq("room_id", roomId)` filter of the history query. */
  function InRoom(roomId: string): Message -> bool {
    (m: Message) => m.roomId == roomId
  }

  /** An insert into `chat_rooms`: the stored row (server columns from the
      stamp) and the store that now ends with it. */
  function InsertRoom(store: Store, name: string, createdBy: string, createdFor: Option<string>,
                      isAdminCreated: Option<bool>, stamp: Stamp): (r: (Room, Store))
    ensures r.1 == store.(rooms := store.rooms + [r.0])
    ensures r.0 == Room(stamp.id, name, stamp.createdAt, createdBy, createdFor, isAdminCreated)
  {
    var room := Room(stamp.id, name, stamp.createdAt, createdBy, createdFor, isAdminCreated);
    (room, store.(rooms := store.rooms + [room]))
  }

  /** Either the store is as it was, or exactly `room` was appended to its rooms. */
  predicate AtMostAppended(before: Store, after: Store, room: Room) {
    after == before || after == before.(rooms := before.rooms + [room])
  }

  /** `createDirectMessageRoom(otherId, isAdminCreating)`: return the first
      room involving both the signed-in user and `otherId`, or else insert an
      "Admin Support" room created by the user for `otherId`. */
  function CreateDirectMessageRoom(store: Store, env: CallEnv, otherId: string, isAdminCreating: bool)
    : (r: Result<(Room, Store), ChatError>)
    ensures env.auth.None? ==> r == Failure(NotSignedIn)
    ensures r.Success? ==> IsDirectRoomOf(r.value.0, env.auth.value.id, otherId)
    ensures r.Success? ==> r.value.0 in r.value.1.rooms && AtMostAppended(store, r.value.1, r.value.0)
    ensures env.auth.Some? && !env.faults.queryFails && !env.faults.writeFails ==> r.Success?
    ensures env.auth.Some? && env.faults.queryFails ==> r == Failure(StoreError)
    ensures (env.auth.Some? && !env.faults.queryFails && env.faults.writeFails
             && Find(store.rooms, DirectQuery(env.auth.value.id, otherId)).None?) ==> r == Failure(StoreError)
  {
    if env.auth.None? then Failure(NotSignedIn)
    else if env.faults.queryFails then Failure(StoreError)
    else
      var u := env.auth.value.id;
      match Find(store.rooms, DirectQuery(u, otherId))
      case Some(existing) => Success((existing, store))
      case None =>
        if env.faults.writeFails then Failure(StoreError)
        // Both branches of `createDirectMessageRoom` build the same name, creator and target.
        else Success(InsertRoom(store, DirectRoomName, u, Some(otherId), Some(isAdminCreating), env.stamp))
  }

  /** An existing room involving both parties is returned, the first one in
      store order, and the store is left unchanged. */
  lemma DirectReturnsExisting(store: Store, env: CallEnv, otherId: string, isAdminCreating: bool, k: nat)
    requires env.auth.Some? && !env.faults.queryFails
    requires k < |store.rooms| && IsDirectRoomOf(store.rooms[k], env.auth.value.id, otherId)
    requires forall j :: 0 <= j < k ==> !IsDirectRoomOf(store.rooms[j], env.auth.value.id, otherId)
    ensures CreateDirectMessageRoom(store, env, otherId, isAdminCreating) == Success((store.rooms[k], store))
  {
    var i := FindIndex(store.rooms, DirectQuery(env.auth.value.id, otherId));
    assert i.Some?;
  }

  /** Without an existing room, exactly one "Admin Support" room is appended,
      created by the user for `otherId` and tagged with the flag. */
  lemma DirectInsertsOne(store: Store, env: CallEnv, otherId: string, isAdminCreating: bool)
    requires env.auth.Some? && env.faults == NoFaults
    requires forall room :: room in store.rooms ==> !IsDirectRoomOf(room, env.auth.value.id, otherId)
    ensures var r := CreateDirectMessageRoom(store, env, otherId, isAdminCreating);
      && r.Success?
      && r.value.1.rooms == store.rooms + [r.value.0]
      && r.value.1.messages == store.messages && r.value.1.profiles == store.profiles
      && r.value.0.name == DirectRoomName
      && r.value.0.createdBy == env.auth.value.id
      && r.value.0.createdFor == Some(otherId)
      && r.value.0.isAdminCreated == Some(isAdminCreating)
      && r.value.0.id == env.stamp.id
  {
  }

  /** Who initiates only decides the `is_admin_created` tag: both flag values
      give the same name, creator and target. */
  lemma DirectFlagOnlyTags(store: Store, env: CallEnv, otherId: string)
    requires CreateDirectMessageRoom(store, env, otherId, true).Success?
    ensures var a := CreateDirectMessageRoom(store, env, otherId, true);
      var b := CreateDirectMessageRoom(store, env, otherId, false);
      && b.Success?
      && a.value.0.name == b.value.0.name
      && a.value.0.createdBy == b.value.0.createdBy
      && a.value.0.createdFor == b.value.0.createdFor
  {
  }

  /** Asking twice for the same direct room, with no other writer in between,
      returns the same room and the second call writes nothing. */
  lemma DirectIdempotent(store: Store, env1: CallEnv, env2: CallEnv, otherId: string, f1: bool, f2: bool)
    requires env1.auth.Some? && env2.auth == env1.auth && !env2.faults.queryFails
    requires CreateDirectMessageRoom(store, env1, otherId, f1).Success?
    ensures var first := CreateDirectMessageRoom(store, env1, otherId, f1).value;
      CreateDirectMessageRoom(first.1, env2, otherId, f2) == Success(first)
  {
    var u := env1.auth.value.id;
    var p := DirectQuery(u, otherId);
    var first := CreateDirectMessageRoom(store, env1, otherId, f1).value;
    match FindIndex(store.rooms, p)
    case Some(k) =>
      DirectReturnsExisting(store, env2, otherId, f2, k);
    case None =>
      var rooms := first.1.rooms;
      assert rooms == store.rooms + [first.0];
      DirectReturnsExisting(first.1, env2, otherId, f2, |store.rooms|);
  }

  /** The other party asking for a direct room with the user gets the room the
      user created: the existence query is symmetric in the two parties. */
  lemma DirectRoomShared(store: Store, env1: CallEnv, env2: CallEnv, otherId: string, f1: bool, f2: bool)
    requires env1.auth.Some? && env2.auth.Some? && env2.auth.value.id == otherId && !env2.faults.queryFails
    requires CreateDirectMessageRoom(store, env1, otherId, f1).Success?
    ensures var first := CreateDirectMessageRoom(store, env1, otherId, f1).value;
      CreateDirectMessageRoom(first.1, env2, env1.auth.value.id, f2) == Success(first)
  {
    var u := env1.auth.value.id;
    var p := DirectQuery(u, otherId);
    var first := CreateDirectMessageRoom(store, env1, otherId, f1).value;
    match FindIndex(store.rooms, p)
    case Some(k) =>
      forall j | 0 <= j < k ensures !IsDirectRoomOf(store.rooms[j], otherId, u) {
        assert !p(store.rooms[j]);
      }
      DirectReturnsExisting(store, env2, u, f2, k);
    case None =>
      var rooms := first.1.rooms;
      assert rooms == store.rooms + [first.0];
      forall j | 0 <= j < |store.rooms| ensures !IsDirectRoomOf(rooms[j], otherId, u) {
        assert !p(store.rooms[j]);
      }
      DirectReturnsExisting(first.1, env2, u, f2, |store.rooms|);
  }

  /** `createGeneralSupportRoom`: return the user's first "Support Chat"
      room, or else insert one created by the user with no target. */
  function CreateGeneralSupportRoom(store: Store, env: CallEnv): (r: Result<(Room, Store), ChatError>)
    ensures env.auth.None? ==> r == Failure(NotSignedIn)
    ensures r.Success? ==> IsSupportRoomOf(r.value.0, env.auth.value.id)
    ensures r.Success? ==> r.value.0 in r.value.1.rooms && AtMostAppended(store, r.value.1, r.value.0)
    ensures r.Success? && r.value.1 != store ==> r.value.0.createdFor.None? && r.value.0.isAdminCreated.None?
    ensures env.auth.Some? && !env.faults.queryFails && !env.faults.writeFails ==> r.Success?
    ensures env.auth.Some? && env.faults.queryFails ==> r == Failure(StoreError)
    ensures (env.auth.Some? && !env.faults.queryFails && env.faults.writeFails
             && Find(store.rooms, SupportQuery(env.auth.value.id)).None?) ==> r == Failure(StoreError)
  {
    if env.auth.None? then Failure(NotSignedIn)
    else if env.faults.queryFails then Failure(StoreError)
    else
      var u := env.auth.value.id;
      match Find(store.rooms, SupportQuery(u))
      case Some(existing) => Success((existing, store))
      case None =>
        if env.faults.writeFails then Failure(StoreError)
        else Success(InsertRoom(store, SupportRoomName, u, None, None, env.stamp))
  }

  /** The user's first existing "Support Chat" room is returned and the store
      is left unchanged. */
  lemma SupportReturnsExisting(store: Store, env: CallEnv, k: nat)
    requires env.auth.Some? && !env.faults.queryFails
    requires k < |store.rooms| && IsSupportRoomOf(store.rooms[k], env.auth.value.id)
    requires forall j :: 0 <= j < k ==> !IsSupportRoomOf(store.rooms[j], env.auth.value.id)
    ensures CreateGeneralSupportRoom(store, env) == Success((store.rooms[k], store))
  {
    var i := FindIndex(store.rooms, SupportQuery(env.auth.value.id));
    assert i.Some?;
  }

  /** A second request returns the room the first one returned and writes
      nothing, so two sequential requests add at most one room. */
  lemma SupportIdempotent(store: Store, env1: CallEnv, env2: CallEnv)
    requires env1.auth.Some? && env2.auth == env1.auth && !env2.faults.queryFails
    requires CreateGeneralSupportRoom(store, env1).Success?
    ensures var first := CreateGeneralSupportRoom(store, env1).value;
      && CreateGeneralSupportRoom(first.1, env2) == Success(first)
      && |first.1.rooms| <= |store.rooms| + 1
  {
    var u := env1.auth.value.id;
    var p := SupportQuery(u);
    var first := CreateGeneralSupportRoom(store, env1).value;
    var rooms := first.1.rooms;
    match FindIndex(store.rooms, p)
    case Some(k) =>
      assert FindIndex(rooms, p) == Some(k);
    case None =>
      assert rooms == store.rooms + [first.0];
      assert FindIndex(rooms, p) == Some(|store.rooms|) by {
        assert forall j :: 0 <= j < |store.rooms| ==> rooms[j] == store.rooms[j];
      }
  }

  /** The legacy path of `createChatRoom`: a room with the given name created
      by the user, no existence check. */
  function CreateNamedRoom(store: Store, env: CallEnv, name: string): (r: Result<(Room, Store), ChatError>)
    ensures env.auth.None? ==> r == Failure(NotSignedIn)
    ensures r.Success? ==> r.value.1 == store.(rooms := store.rooms + [r.value.0])
    ensures r.Success? ==>
      && r.value.0.name == name && r.value.0.createdBy == env.auth.value.id
      && r.value.0.createdFor.None? && r.value.0.id == env.stamp.id
    ensures r.Failure? <==> env.auth.None? || env.faults.writeFails
  {
    if env.auth.None? then Failure(NotSignedIn)
    else if env.faults.writeFails then Failure(StoreError)
    else Success(InsertRoom(store, name, env.auth.value.id, None, None, env.stamp))
  }

  datatype Route = DirectRoute | SupportRoute | NamedRoute

  /** "Looks like a UUID": 36 characters including a '-'. */
  predicate LooksLikeUserId(s: string) {
    |s| == UuidLength && '-' in s
  }

  /** The argument classification of `createChatRoom`; the id test is made
      first. */
  function RouteOf(arg: string): (r: Route)
    ensures r == DirectRoute <==> LooksLikeUserId(arg)
    ensures r == SupportRoute <==> arg == SupportRoomName
    ensures r == NamedRoute <==> !LooksLikeUserId(arg) && arg != SupportRoomName
  {
    if LooksLikeUserId(arg) then DirectRoute
    else if arg == SupportRoomName then SupportRoute
    else NamedRoute
  }

  /** `createChatRoom(adminIdOrRoomName)`. */
  function CreateChatRoom(store: Store, env: CallEnv, arg: string): (r: Result<(Room, Store), ChatError>)
    ensures env.auth.None? ==> r == Failure(NotSignedIn)
    ensures r.Success? ==> r.value.0 in r.value.1.rooms && AtMostAppended(store, r.value.1, r.value.0)
    ensures r.Success? && r.value.1 != store ==> r.value.0.name in {arg, DirectRoomName, SupportRoomName}
  {
    match RouteOf(arg)
    case DirectRoute => CreateDirectMessageRoom(store, env, arg, false)
    case SupportRoute => CreateGeneralSupportRoom(store, env)
    case NamedRoute => CreateNamedRoom(store, env, arg)
  }

  /** What each route of `createChatRoom` does for a signed-in user whose
      calls succeed. */
  lemma CreateChatRoomRoutes(store: Store, env: CallEnv, arg: string)
    requires env.auth.Some? && env.faults == NoFaults
    ensures var r := CreateChatRoom(store, env, arg);
      && r.Success?
      && (LooksLikeUserId(arg) ==>
            && IsDirectRoomOf(r.value.0, env.auth.value.id, arg)
            && (r.value.1 != store ==> r.value.0.name == DirectRoomName && r.value.0.createdFor == Some(arg)))
      && (arg == SupportRoomName ==> IsSupportRoomOf(r.value.0, env.auth.value.id))
      && (!LooksLikeUserId(arg) && arg != SupportRoomName ==>
            r.value.1.rooms == store.rooms + [r.value.0] && r.value.0.name == arg)
  {
  }

  // ---------------------------------------------------------------------
  // Messages and authors
  // ---------------------------------------------------------------------

  /** `sendChatMessage(roomId, content)`: one message row with the content
      exactly as given, authored by the signed-in user. */
  function SendChatMessage(store: Store, env: CallEnv, roomId: string, content: string)
    : (r: Result<(Message, Store), ChatError>)
    ensures env.auth.None? ==> r == Failure(NotSignedIn)
    ensures r.Failure? <==> env.auth.None? || env.faults.writeFails
    ensures r.Success? ==> r.value.1 == store.(messages := store.messages + [r.value.0])
    ensures r.Success? ==> r.value.0 == Message(env.stamp.id, roomId, env.auth.value.id, content, env.stamp.createdAt)
  {
    if env.auth.None? then Failure(NotSignedIn)
    else if env.faults.writeFails then Failure(StoreError)
    else
      var msg := Message(env.stamp.id, roomId, env.auth.value.id, content, env.stamp.createdAt);
      Success((msg, store.(messages := store.messages + [msg])))
  }

  /** `fetchChatMessages(roomId)`: the room's messages, in store order. */
  function FetchChatMessages(store: Store, roomId: string, queryFails: bool): (r: Result<seq<Message>, ChatError>)
    ensures queryFails <==> r.Failure?
    ensures r.Success? ==> forall m :: m in r.value ==> m.roomId == roomId
    ensures r.Success? ==> forall m: Message :: m.roomId == roomId ==> multiset(r.value)[m] == multiset(store.messages)[m]
    ensures r.Success? ==> IsSubsequence(r.value, store.messages)
  {
    if queryFails then Failure(StoreError)
    else Success(Filter(store.messages, InRoom(roomId)))
  }

  /** A message appended to the store extends its own room's history and no
      other. */
  lemma HistoryAfterAppend(store: Store, after: Store, x: Message, roomId: string)
    requires after.messages == store.messages + [x]
    ensures x.roomId == roomId ==>
      FetchChatMessages(after, roomId, false) == Success(FetchChatMessages(store, roomId, false).value + [x])
    ensures x.roomId != roomId ==>
      FetchChatMessages(after, roomId, false) == FetchChatMessages(store, roomId, false)
  {
    var before := Filter(store.messages, InRoom(roomId));
    FilterAppend(store.messages, x, InRoom(roomId));
    if x.roomId != roomId {
      assert !InRoom(roomId)(x);
      assert before + [] == before;
    }
  }

  /** After a successful send, the room's history is what it was plus the new
      message at the end; other rooms' histories are unchanged. */
  lemma SendThenFetch(store: Store, env: CallEnv, roomId: string, content: string, other: string)
    requires env.auth.Some? && !env.faults.writeFails
    ensures var sent := SendChatMessage(store, env, roomId, content);
      && sent.Success?
      && FetchChatMessages(sent.value.1, roomId, false) == Success(FetchChatMessages(store, roomId, false).value + [sent.value.0])
      && (other != roomId ==> FetchChatMessages(sent.value.1, other, false) == FetchChatMessages(store, other, false))
  {
    var sent := SendChatMessage(store, env, roomId, content);
    var msg := sent.value.0;
    var after := sent.value.1;
    HistoryAfterAppend(store, after, msg, roomId);
    HistoryAfterAppend(store, after, msg, other);
  }

  /** `getChatUser(userId)`: the author projection, or null. A failing query
      and `maybeSingle` finding several rows are both reported as null instead
      of being thrown. */
  function GetChatUser(profiles: seq<Profile>, userId: string, queryFails: bool): (r: Option<ChatUser>)
    ensures r.Some? <==> !queryFails && |ProfilesWithId(profiles, userId)| == 1
    ensures r.Some? ==> r.value.id == userId
    ensures r.Some? ==> exists p :: p in profiles && p.id == userId && r.value == ToChatUser(p)
  {
    if queryFails then None
    else
      var rows := ProfilesWithId(profiles, userId);
      if |rows| == 1 then
        assert rows[0] in rows;
        Some(ToChatUser(rows[0]))
      else None
  }

  /** A profile with a unique id is found; a missing one reads as null. */
  lemma GetChatUserFindsUnique(profiles: seq<Profile>, k: nat)
    requires k < |profiles|
    requires forall i :: 0 <= i < |profiles| && i != k ==> profiles[i].id != profiles[k].id
    ensures GetChatUser(profiles, profiles[k].id, false) == Some(ToChatUser(profiles[k]))
  {
    OnlyRowWithId(profiles, profiles[k].id, k);
  }

  lemma GetChatUserMissing(profiles: seq<Profile>, userId: string)
    requires forall i :: 0 <= i < |profiles| ==> profiles[i].id != userId
    ensures GetChatUser(profiles, userId, false) == None
  {
    NoRowWithId(profiles, userId);
  }
}

=== FILE: chat_types.dfy ===
/** The records of the chat feature and the in-memory stand-in for the three
    hosted tables (`chat_rooms`, `chat_messages`, `profiles`). */
module ChatTypes {
  import opened Common

  /** A row of `chat_rooms`. `createdFor` (the target of a direct-message room)
      and `isAdminCreated` are read and written by the code although the
      declared interface omits them; both are absent unless an insert sets them. */
  datatype Room = Room(
    id: string,
    name: string,
    createdAt: string,
    createdBy: string,
    createdFor: Option<string>,
    isAdminCreated: Option<bool>)

  /** A row of `chat_messages`. */
  datatype Message = Message(
    id: string,
    roomId: string,
    userId: string,
    content: string,
    createdAt: string)

  /** A row of `profiles`; `role` is "admin", "user" or absent. */
  datatype Profile = Profile(
    id: string,
    fullName: Option<string>,
    avatarUrl: Option<string>,
    role: Option<string>)

  /** The projection of a profile used to render message authors. */
  datatype ChatUser = ChatUser(id: string, fullName: Option<string>, avatarUrl: Option<string>)

  /** The signed-in account as the authentication service reports it. */
  datatype AuthUser = AuthUser(id: string, email: Option<string>)

  /** The hosted tables; an insert appends, a query scans in this order. */
  datatype Store = Store(rooms: seq<Room>, messages: seq<Message>, profiles: seq<Profile>)

  /** The server-generated columns of a freshly inserted row. */
  datatype Stamp = Stamp(id: string, createdAt: string)

  /** Which store round-trips of one service call fail (a network or
      database error reported by the client). */
  datatype Faults = Faults(queryFails: bool, writeFails: bool)

  const NoFaults: Faults := Faults(false, false)

  /** Why a service call throws. */
  datatype ChatError = NotSignedIn | StoreError

  /** The JavaScript truthiness of an optional identifier: both `null` and
      the empty string are falsy. */
  predicate IsSet(id: Option<string>) {
    id.Some? && id.value != ""
  }

  /** The participant test shared by the room filter and the direct-room
      query: `created_by = id OR created_for = id` (an absent target matches
      nothing). */
  predicate Involves(room: Room, id: string) {
    room.createdBy == id || room.createdFor == Some(id)
  }

  /** The circumstances of one service call: who the authentication service
      says is signed in, the columns the server will generate for an insert,
      and which round-trips fail. */
  datatype CallEnv = CallEnv(auth: Option<AuthUser>, stamp: Stamp, faults: Faults)

  function ToChatUser(p: Profile): ChatUser {
    ChatUser(p.id, p.fullName, p.avatarUrl)
  }
}

=== FILE: chat_widget.dfy ===
/** The chat widget: its open/minimised visibility, the rooms it shows for
    the user's role, the room it selects by itself, loading a room's history
    and authors, live message delivery, sending the draft, and the initials
    shown for an author without an avatar. Every network round-trip is a
    parameter: a `Result` for responses the widget receives as they are, or
    the store and call circumstances when the widget's own logic depends on
    what the service does with them. */
module ChatWidget {
  import opened Common
  import opened Text
  import opened ChatTypes
  import ChatService
  import ChatRoomList

  // ---------------------------------------------------------------------
  // Visibility
  // ---------------------------------------------------------------------

  datatype Visibility = Visibility(isOpen: bool, isMinimized: bool)

  /** A closed widget is always minimised. */
  predicate VisibilityInv(v: Visibility) {
    !v.isOpen ==> v.isMinimized
  }

  /** The chat window is rendered. */
  predicate WindowShown(v: Visibility) {
    v.isOpen && !v.isMinimized
  }

  /** The state the component starts in for its `initialOpen` prop. */
  function InitialVisibility(initialOpen: bool): (v: Visibility)
    ensures VisibilityInv(v)
    ensures WindowShown(v) <==> initialOpen
    ensures v.isOpen == initialOpen
  {
    Visibility(initialOpen, !initialOpen)
  }

  /** The launcher button: a closed widget opens unminimised; an open one
      only flips between minimised and not. */
  function ToggleChat(v: Visibility): (v': Visibility)
    ensures v'.isOpen
    ensures !v.isOpen ==> WindowShown(v')
    ensures v.isOpen ==> v'.isMinimized != v.isMinimized
  {
    if !v.isOpen then Visibility(true, false) else v.(isMinimized := !v.isMinimized)
  }

  /** The close button. */
  function CloseChat(v: Visibility): (v': Visibility)
    ensures !v'.isOpen && !WindowShown(v') && VisibilityInv(v')
  {
    Visibility(false, true)
  }

  /** The effect that runs when the `initialOpen` prop is (re)applied: a true
      value opens the window, a false one leaves the state alone. */
  function ApplyInitialOpen(v: Visibility, initialOpen: bool): (v': Visibility)
    ensures initialOpen ==> WindowShown(v')
    ensures !initialOpen ==> v' == v
  {
    if initialOpen then Visibility(true, false) else v
  }

  datatype VisibilityEvent = Toggle | Close | InitialOpenApplied(initialOpen: bool)

  function Step(v: Visibility, e: VisibilityEvent): Visibility {
    match e
    case Toggle => ToggleChat(v)
    case Close => CloseChat(v)
    case InitialOpenApplied(b) => ApplyInitialOpen(v, b)
  }

  /** The state after a sequence of events, oldest first. */
  function Run(v: Visibility, events: seq<VisibilityEvent>): Visibility
    decreases |events|
  {
    if |events| == 0 then v else Run(Step(v, events[0]), events[1..])
  }

  /** Every event keeps a closed widget minimised. */
  lemma {:induction false} RunKeepsInv(v: Visibility, events: seq<VisibilityEvent>)
    requires VisibilityInv(v)
    ensures VisibilityInv(Run(v, events))
    decreases |events|
  {
    if |events| > 0 {
      RunKeepsInv(Step(v, events[0]), events[1..]);
    }
  }

  /** From the initial state, whatever happens, a closed widget is minimised,
      so the window is shown exactly when the widget is not minimised. */
  lemma ReachableVisibility(initialOpen: bool, events: seq<VisibilityEvent>)
    ensures var v := Run(InitialVisibility(initialOpen), events);
      && VisibilityInv(v)
      && (WindowShown(v) <==> !v.isMinimized)
      && v != Visibility(false, false)
  {
    RunKeepsInv(InitialVisibility(initialOpen), events);
  }

  /** While open, two toggles restore the state. */
  lemma ToggleTwice(v: Visibility)
    requires v.isOpen
    ensures ToggleChat(ToggleChat(v)) == v
  {
  }

  /** From closed, a toggle shows the window; a second one minimises it. */
  lemma ToggleFromClosed(v: Visibility)
    requires !v.isOpen
    ensures WindowShown(ToggleChat(v))
    ensures var w := ToggleChat(ToggleChat(v)); w.isOpen && w.isMinimized
  {
  }

  lemma CloseIdempotent(v: Visibility)
    ensures CloseChat(CloseChat(v)) == CloseChat(v)
  {
  }

  // ---------------------------------------------------------------------
  // Widget state
  // ---------------------------------------------------------------------

  /** The component's state. `authors` is the per-author cache (`userMap`):
      `None` records a lookup that found nobody. */
  datatype Widget = Widget(
    view: Visibility,
    rooms: seq<Room>,
    admins: seq<ChatUser>,
    users: seq<ChatUser>,
    activeRoomId: Option<string>,
    messages: seq<Message>,
    draft: string,
    isLoading: bool,
    isSending: bool,
    authors: map<string, Option<ChatUser>>)

  function InitialWidget(initialOpen: bool): (w: Widget)
    ensures VisibilityInv(w.view) && w.isLoading && !w.isSending && !IsSet(w.activeRoomId)
  {
    Widget(InitialVisibility(initialOpen), [], [], [], None, [], "", true, false, map[])
  }

  /** What is on screen. */
  datatype Screen = Nothing | LauncherOnly | RoomListScreen | ConversationScreen

  /** A signed-out user sees nothing; otherwise the launcher, plus the window
      with the room list when no room is active and the conversation when
      one is. */
  function ScreenOf(w: Widget, user: Option<string>): (s: Screen)
    ensures s == ConversationScreen <==> user.Some? && WindowShown(w.view) && IsSet(w.activeRoomId)
    ensures s == RoomListScreen <==> user.Some? && WindowShown(w.view) && !IsSet(w.activeRoomId)
    ensures s == Nothing <==> user.None?
  {
    if user.None? then Nothing
    else if !WindowShown(w.view) then LauncherOnly
    else if !IsSet(w.activeRoomId) then RoomListScreen
    else ConversationScreen
  }

  /** The room whose id is active (`rooms.find`). */
  function ActiveRoom(w: Widget): (r: Option<Room>)
    ensures r.Some? ==> r.value in w.rooms && w.activeRoomId == Some(r.value.id)
    ensures r.Some? ==> exists k :: (&& 0 <= k < |w.rooms| && w.rooms[k] == r.value
      && forall j :: 0 <= j < k ==> w.activeRoomId != Some(w.rooms[j].id))
    ensures r.None? <==> forall room :: room in w.rooms ==> w.activeRoomId != Some(room.id)
  {
    Find(w.rooms, (room: Room) => w.activeRoomId == Some(room.id))
  }

  /** The conversation header: the active room's name, or "Chat" when the
      room is unknown or its name is empty. */
  function HeaderTitle(w: Widget): (t: string)
    ensures t != ""
    ensures t == "Chat" || exists room :: room in w.rooms && w.activeRoomId == Some(room.id) && t == room.name
    ensures ActiveRoom(w).Some? && ActiveRoom(w).value.name != "" ==> t == ActiveRoom(w).value.name
    ensures ActiveRoom(w).None? ==> t == "Chat"
  {
    match ActiveRoom(w)
    case Some(room) => if room.name != "" then room.name else "Chat"
    case None => "Chat"
  }

  // ---------------------------------------------------------------------
  // Rooms
  // ---------------------------------------------------------------------

  /** The rooms a user of the given role is shown. */
  predicate Shows(room: Room, userId: string, isAdmin: bool) {
    isAdmin || Involves(room, userId)
  }

  function RoleTest(userId: string, isAdmin: bool): Room -> bool {
    (room: Room) => Shows(room, userId, isAdmin)
  }

  /** The role filter of `loadRooms`: an admin sees every fetched room, a
      regular user the rooms created by or for them, in fetched order. */
  function VisibleRooms(fetched: seq<Room>, userId: string, isAdmin: bool): (shown: seq<Room>)
    ensures isAdmin ==> shown == fetched
    ensures forall room :: room in shown <==> room in fetched && Shows(room, userId, isAdmin)
    ensures forall room :: multiset(shown)[room] == if Shows(room, userId, isAdmin) then multiset(fetched)[room] else 0
    ensures IsSubsequence(shown, fetched)
  {
    if isAdmin then
      SubsequenceReflexive(fetched);
      fetched
    else Filter(fetched, RoleTest(userId, isAdmin))
  }

  /** The auto-selection of `loadRooms`: only when rooms were fetched and no
      room is active, the first room the role filter keeps. */
  function AutoSelectRoom(fetched: seq<Room>, activeRoomId: Option<string>, userId: string, isAdmin: bool)
    : (r: Option<Room>)
    ensures r.Some? ==> |fetched| > 0 && !IsSet(activeRoomId)
    ensures r.Some? <==> !IsSet(activeRoomId) && exists i :: 0 <= i < |fetched| && Shows(fetched[i], userId, isAdmin)
    ensures r.Some? ==> exists k :: (0 <= k < |fetched| && r.value == fetched[k] && Shows(fetched[k], userId, isAdmin)
      && forall j :: 0 <= j < k ==> !Shows(fetched[j], userId, isAdmin))
  {
    if |fetched| > 0 && !IsSet(activeRoomId) then
      var shown := VisibleRooms(fetched, userId, isAdmin);
      FindIsFilterHead(fetched, RoleTest(userId, isAdmin));
      if |shown| > 0 then
        assert isAdmin ==> fetched[0] == shown[0];
        Some(shown[0])
      else None
    else None
  }

  /** The auto-selected room is the head of the shown list. */
  lemma AutoSelectIsFirstShown(fetched: seq<Room>, userId: string, isAdmin: bool)
    ensures var shown := VisibleRooms(fetched, userId, isAdmin);
      && (|shown| > 0 ==> AutoSelectRoom(fetched, None, userId, isAdmin) == Some(shown[0]))
      && (|shown| == 0 ==> AutoSelectRoom(fetched, None, userId, isAdmin) == None)
  {
    FindIsFilterHead(fetched, RoleTest(userId, isAdmin));
  }

  // ---------------------------------------------------------------------
  // History and authors
  // ---------------------------------------------------------------------

  /** The backend as the widget's reads see it: the store, whether the history
      query fails, and the author ids whose lookups fail. */
  datatype Backend = Backend(store: Store, historyFails: bool, failingLookups: set<string>)

  /** `getChatUser(id)` against the backend. */
  function LookupAuthor(b: Backend, id: string): Option<ChatUser> {
    ChatService.GetChatUser(b.store.profiles, id, id in b.failingLookups)
  }

  function AuthorIds(ms: seq<Message>): (ids: seq<string>)
    ensures |ids| == |ms|
    ensures forall i :: 0 <= i < |ms| ==> ids[i] == ms[i].userId
  {
    if |ms| == 0 then [] else [ms[0].userId] + AuthorIds(ms[1..])
  }

  /** `setUserMap(prev => ({ ...prev, ...newUserMap }))`: the fresh lookups
      overwrite, every other cached author is kept. */
  function MergeAuthors(prev: map<string, Option<ChatUser>>, ids: seq<string>, b: Backend)
    : (m: map<string, Option<ChatUser>>)
    ensures m.Keys == prev.Keys + (set id | id in ids)
    ensures forall id :: id in ids ==> m[id] == LookupAuthor(b, id)
    ensures forall k :: k in prev && k !in ids ==> m[k] == prev[k]
  {
    prev + map id | id in ids :: LookupAuthor(b, id)
  }

  /** `loadMessages(roomId)`: on success the history replaces the shown
      messages and every distinct author is looked up once; a failure is
      logged and changes nothing. */
  function LoadMessages(w: Widget, roomId: string, b: Backend): (w': Widget)
    ensures b.historyFails ==> w' == w
    ensures !b.historyFails ==>
      && w'.messages == ChatService.FetchChatMessages(b.store, roomId, false).value
      && w' == w.(messages := w'.messages, authors := w'.authors)
  {
    match ChatService.FetchChatMessages(b.store, roomId, b.historyFails)
    case Failure(_) => w
    case Success(ms) => w.(messages := ms, authors := MergeAuthors(w.authors, Dedup(AuthorIds(ms)), b))
  }

  /** After a successful history load, the author lookups are one per distinct
      author; each author of the history is cached with its lookup result and
      previously cached authors are kept. */
  lemma LoadMessagesAuthors(w: Widget, roomId: string, b: Backend)
    requires !b.historyFails
    ensures var w' := LoadMessages(w, roomId, b);
      var ids := Dedup(AuthorIds(w'.messages));
      && (forall m :: m in w'.messages ==> m.userId in w'.authors && w'.authors[m.userId] == LookupAuthor(b, m.userId))
      && (forall k :: k in w.authors ==> k in w'.authors)
      && (forall k :: k in w.authors && k !in ids ==> w'.authors[k] == w.authors[k])
  {
    var ms := LoadMessages(w, roomId, b).messages;
    forall m | m in ms ensures m.userId in AuthorIds(ms) {
      var i :| 0 <= i < |ms| && ms[i] == m;
      assert AuthorIds(ms)[i] == m.userId;
    }
  }

  /** The de-duplicated author list has one entry per distinct author. */
  lemma OneLookupPerAuthor(ms: seq<Message>)
    ensures var ids := Dedup(AuthorIds(ms));
      Distinct(ids) && |ids| == |set m | m in ms :: m.userId|
  {
    var ids := Dedup(AuthorIds(ms));
    DistinctCardinality(ids);
    assert (set x | x in ids) == (set m | m in ms :: m.userId) by {
      forall x | x in ids ensures x in (set m | m in ms :: m.userId) {
        var i :| 0 <= i < |ms| && AuthorIds(ms)[i] == x;
        assert ms[i] in ms;
      }
      forall m | m in ms ensures m.userId in ids {
        var i :| 0 <= i < |ms| && ms[i] == m;
        assert AuthorIds(ms)[i] == m.userId;
      }
    }
  }

  /** An author must be (re)fetched when it is not cached or cached as null. */
  predicate NeedsAuthor(authors: map<string, Option<ChatUser>>, id: string) {
    id !in authors || authors[id].None?
  }

  /** A message delivered by the live subscription: it is appended to the
      shown messages, and its author is looked up only when needed. */
  function DeliverLive(w: Widget, msg: Message, b: Backend): (w': Widget)
    ensures |w'.messages| == |w.messages| + 1
    ensures w'.messages[..|w.messages|] == w.messages && w'.messages[|w.messages|] == msg
    ensures msg.userId in w'.authors
    ensures forall k :: k in w.authors && k != msg.userId ==> k in w'.authors && w'.authors[k] == w.authors[k]
    ensures w' == w.(messages := w'.messages, authors := w'.authors)
  {
    var shown := w.(messages := w.messages + [msg]);
    if NeedsAuthor(w.authors, msg.userId) then
      shown.(authors := w.authors[msg.userId := LookupAuthor(b, msg.userId)])
    else shown
  }

  /** The lookup happens exactly when the author is missing or null: without
      it the result does not depend on the backend at all, with it the entry
      is the lookup's result. */
  lemma DeliverLiveLookup(w: Widget, msg: Message, b1: Backend, b2: Backend)
    ensures !NeedsAuthor(w.authors, msg.userId) ==>
      DeliverLive(w, msg, b1) == DeliverLive(w, msg, b2) && DeliverLive(w, msg, b1).authors == w.authors
    ensures NeedsAuthor(w.authors, msg.userId) ==>
      DeliverLive(w, msg, b1).authors == w.authors[msg.userId := LookupAuthor(b1, msg.userId)]
  {
  }

  // ---------------------------------------------------------------------
  // Loading rooms, selecting a room
  // ---------------------------------------------------------------------

  /** `loadRooms` for the signed-in user `user`: show the role-filtered rooms,
      store the contacts list of the role (users for an admin, admins for a
      user), then auto-select and load a room. A failing rooms or contacts
      request is caught and cuts the rest short; loading ends either way. */
  function LoadRooms(w: Widget, user: Option<string>, isAdmin: bool,
                     fetched: Result<seq<Room>, ChatError>,
                     contacts: Result<seq<ChatUser>, ChatError>,
                     b: Backend): (w': Widget)
    ensures user.None? ==> w' == w
    ensures user.Some? ==> !w'.isLoading && w'.view == w.view && w'.draft == w.draft
    ensures user.Some? && fetched.Failure? ==> w' == w.(isLoading := false)
  {
    if user.None? then w
    else
      match fetched
      case Failure(_) => w.(isLoading := false)
      case Success(rs) =>
        var withRooms := w.(rooms := VisibleRooms(rs, user.value, isAdmin));
        match contacts
        case Failure(_) => withRooms.(isLoading := false)
        case Success(cs) =>
          var withContacts := if isAdmin then withRooms.(users := cs) else withRooms.(admins := cs);
          match AutoSelectRoom(rs, w.activeRoomId, user.value, isAdmin)
          case None => withContacts.(isLoading := false)
          case Some(first) =>
            LoadMessages(withContacts.(activeRoomId := Some(first.id)), first.id, b).(isLoading := false)
  }

  /** What `loadRooms` does to the parts of the state it owns, and that it
      leaves the visibility, the draft and the sending flag alone. */
  lemma LoadRoomsEffect(w: Widget, u: string, isAdmin: bool, rs: seq<Room>,
                        contacts: Result<seq<ChatUser>, ChatError>, b: Backend)
    ensures var w' := LoadRooms(w, Some(u), isAdmin, Success(rs), contacts, b);
      && !w'.isLoading
      && w'.rooms == VisibleRooms(rs, u, isAdmin)
      && w'.view == w.view && w'.draft == w.draft && w'.isSending == w.isSending
      && (contacts.Success? && isAdmin ==> w'.users == contacts.value && w'.admins == w.admins)
      && (contacts.Success? && !isAdmin ==> w'.admins == contacts.value && w'.users == w.users)
      && (contacts.Failure? ==> w'.admins == w.admins && w'.users == w.users && w'.activeRoomId == w.activeRoomId)
      && (contacts.Failure? ==> w' == w.(rooms := VisibleRooms(rs, u, isAdmin), isLoading := false))
  {
  }

  /** The room `loadRooms` makes active: the first shown room, and only when
      rooms were fetched, none was active and the contacts request succeeded;
      that room's history is then loaded. */
  lemma LoadRoomsSelects(w: Widget, u: string, isAdmin: bool, rs: seq<Room>, cs: seq<ChatUser>, b: Backend)
    ensures var w' := LoadRooms(w, Some(u), isAdmin, Success(rs), Success(cs), b);
      var shown := VisibleRooms(rs, u, isAdmin);
      && (IsSet(w.activeRoomId) || |shown| == 0 ==> w'.activeRoomId == w.activeRoomId && w'.messages == w.messages)
      && (!IsSet(w.activeRoomId) && |shown| > 0 ==>
            && w'.activeRoomId == Some(shown[0].id)
            && (!b.historyFails ==> w'.messages == ChatService.FetchChatMessages(b.store, shown[0].id, false).value))
  {
    AutoSelectIsFirstShown(rs, u, isAdmin);
    var shown := VisibleRooms(rs, u, isAdmin);
    if |shown| == 0 {
      assert forall i :: 0 <= i < |rs| ==> !Shows(rs[i], u, isAdmin) by {
        forall i | 0 <= i < |rs| ensures !Shows(rs[i], u, isAdmin) {
          assert rs[i] in rs;
        }
      }
    }
  }

  /** A signed-out widget does not load anything. */
  lemma LoadRoomsSignedOut(w: Widget, isAdmin: bool, fetched: Result<seq<Room>, ChatError>,
                           contacts: Result<seq<ChatUser>, ChatError>, b: Backend)
    ensures LoadRooms(w, None, isAdmin, fetched, contacts, b) == w
  {
  }

  /** Clicking a room in the list: it becomes active and, through the effect
      on the active id, its history is loaded. */
  function SelectRoom(w: Widget, roomId: string, b: Backend): (w': Widget)
    ensures w'.activeRoomId == Some(roomId)
    ensures w'.rooms == w.rooms && w'.view == w.view && w'.draft == w.draft
    ensures roomId != "" && !b.historyFails ==>
      w'.messages == ChatService.FetchChatMessages(b.store, roomId, false).value
    ensures w' == w.(activeRoomId := Some(roomId), messages := w'.messages, authors := w'.authors)
    ensures forall k :: k in w.authors ==> k in w'.authors
  {
    var selected := w.(activeRoomId := Some(roomId));
    if IsSet(selected.activeRoomId) then LoadMessages(selected, roomId, b) else selected
  }

  /** The back button: no room is active, so an open window shows the room
      list again; rooms, messages and everything else stay as they were. */
  function Back(w: Widget): (w': Widget)
    ensures !IsSet(w'.activeRoomId)
    ensures forall u :: WindowShown(w.view) ==> ScreenOf(w', Some(u)) == RoomListScreen
    ensures && w'.view == w.view && w'.rooms == w.rooms && w'.admins == w.admins && w'.users == w.users
            && w'.messages == w.messages && w'.draft == w.draft && w'.isLoading == w.isLoading
            && w'.isSending == w.isSending && w'.authors == w.authors
  {
    w.(activeRoomId := None)
  }

  /** Selecting a room in the open window shows its conversation; going back
      shows the room list again with the same rooms. */
  lemma SelectThenBack(w: Widget, user: string, roomId: string, b: Backend)
    requires WindowShown(w.view) && roomId != ""
    ensures ScreenOf(SelectRoom(w, roomId, b), Some(user)) == ConversationScreen
    ensures ScreenOf(Back(SelectRoom(w, roomId, b)), Some(user)) == RoomListScreen
    ensures Back(SelectRoom(w, roomId, b)).rooms == w.rooms
  {
  }

  /** Switching to a room whose history request fails keeps the previous
      room's messages on screen under the new room. */
  lemma SwitchWithFailedHistoryKeepsMessages(w: Widget, roomId: string, b: Backend)
    requires b.historyFails
    ensures SelectRoom(w, roomId, b).messages == w.messages
  {
  }

  /** The room list is only rendered when no room is active, so the list's
      highlight can only fall on a room whose id is empty. */
  lemma RoomListHighlightsNothing(w: Widget, user: string, room: Room)
    requires ScreenOf(w, Some(user)) == RoomListScreen
    requires room.id != ""
    ensures !ChatRoomList.IsHighlighted(room, w.activeRoomId)
  {
  }

  // ---------------------------------------------------------------------
  // Sending
  // ---------------------------------------------------------------------

  /** The send button is disabled for a blank draft or while sending. */
  predicate SendDisabled(w: Widget) {
    IsBlank(w.draft) || w.isSending
  }

  /** `handleSendMessage` for the signed-in user `user` (the widget's own
      session): nothing happens without an active room, with a blank draft or
      without a user; otherwise the untrimmed draft is sent, a success clears
      the draft, a failure keeps it, and sending ends either way. */
  function HandleSendMessage(w: Widget, user: Option<string>, store: Store, env: CallEnv): (r: (Widget, Store))
    ensures !r.0.isSending || r.0 == w
    ensures r.0 == w.(draft := r.0.draft, isSending := r.0.isSending)
  {
    if !IsSet(w.activeRoomId) || IsBlank(w.draft) || user.None? then (w, store)
    else
      match ChatService.SendChatMessage(store, env, w.activeRoomId.value, w.draft)
      case Success(sent) => (w.(draft := "", isSending := false), sent.1)
      case Failure(_) => (w.(isSending := false), store)
  }

  /** The guard: no active room, a blank draft or no user changes nothing. */
  lemma SendGuard(w: Widget, user: Option<string>, store: Store, env: CallEnv)
    requires !IsSet(w.activeRoomId) || IsBlank(w.draft) || user.None?
    ensures HandleSendMessage(w, user, store, env) == (w, store)
  {
  }

  /** The send button on the conversation screen: a blank draft disables it,
      and the handler would do nothing for that draft anyway; an enabled
      button sends the draft, and a write the store accepts adds one message
      and clears the draft. */
  lemma SendButton(w: Widget, user: string, store: Store, env: CallEnv)
    requires ScreenOf(w, Some(user)) == ConversationScreen
    ensures IsBlank(w.draft) ==> SendDisabled(w) && HandleSendMessage(w, Some(user), store, env) == (w, store)
    ensures !SendDisabled(w) && env.auth.Some? && !env.faults.writeFails ==>
      var r := HandleSendMessage(w, Some(user), store, env);
      |r.1.messages| == |store.messages| + 1 && r.0.draft == "" && !r.0.isSending
  {
  }

  /** A successful send stores exactly one message in the active room with the
      draft exactly as typed, then clears the draft; a failed one keeps the
      draft and the store. */
  lemma SendOutcome(w: Widget, user: string, store: Store, env: CallEnv)
    requires IsSet(w.activeRoomId) && !IsBlank(w.draft)
    ensures var r := HandleSendMessage(w, Some(user), store, env);
      && !r.0.isSending
      && (env.auth.Some? && !env.faults.writeFails ==>
            && r.0.draft == ""
            && r.1.messages == store.messages + [Message(env.stamp.id, w.activeRoomId.value, env.auth.value.id, w.draft, env.stamp.createdAt)]
            && r.1.rooms == store.rooms && r.1.profiles == store.profiles)
      && (env.auth.None? || env.faults.writeFails ==> r.0.draft == w.draft && r.1 == store)
  {
  }

  /** After a successful send the active room's history has exactly one more
      message, the draft as typed, at the end. */
  lemma SendShowsOneMessage(w: Widget, user: string, store: Store, env: CallEnv)
    requires IsSet(w.activeRoomId) && !IsBlank(w.draft)
    requires env.auth.Some? && !env.faults.writeFails
    ensures var after := HandleSendMessage(w, Some(user), store, env).1;
      var roomId := w.activeRoomId.value;
      var before := ChatService.FetchChatMessages(store, roomId, false).value;
      var now := ChatService.FetchChatMessages(after, roomId, false).value;
      && |now| == |before| + 1
      && now[..|before|] == before
      && now[|before|].content == w.draft
      && now[|before|].userId == env.auth.value.id
  {
    ChatService.SendThenFetch(store, env, w.activeRoomId.value, w.draft, w.activeRoomId.value);
  }

  // ---------------------------------------------------------------------
  // Initials
  // ---------------------------------------------------------------------

  /** `getInitials(name)`: "?" for a missing or empty name; otherwise the
      first character of every space-separated part, upper-cased, at most
      two of them. */
  function GetInitials(name: Option<string>): (r: string)
    ensures name.None? || name.value == "" ==> r == "?"
    ensures name.Some? && name.value != "" ==> |r| <= 2
  {
    if name.None? || name.value == "" then "?"
    else Prefix(Upper(FirstChars(SplitOnSpace(name.value))), 2)
  }

  /** For a non-empty name the initials are the upper-cased characters that
      start a word, in order, cut to two; they are never spaces, and a name
      that is only spaces has no initials at all. */
  lemma InitialsAreWordStarts(name: string)
    requires name != ""
    ensures var r := GetInitials(Some(name));
      && r == Prefix(Upper(WordStarts(name, true)), 2)
      && ' ' !in r
      && ((forall i :: 0 <= i < |name| ==> name[i] == ' ') ==> r == "")
  {
    FirstCharsOfSplit(name);
    WordStartsShape(name, true);
    var starts := WordStarts(name, true);
    var r := GetInitials(Some(name));
    forall i | 0 <= i < |r| ensures r[i] != ' ' {
      assert r[i] == Upper(starts)[i] == UpperChar(starts[i]);
      assert starts[i] in starts;
    }
    if forall i :: 0 <= i < |name| ==> name[i] == ' ' {
      AllSpacesHaveNoWordStarts(name, true);
    }
  }

  lemma {:induction false} AllSpacesHaveNoWordStarts(s: string, atStart: bool)
    requires forall i :: 0 <= i < |s| ==> s[i] == ' '
    ensures WordStarts(s, atStart) == ""
  {
    if |s| > 0 {
      AllSpacesHaveNoWordStarts(s[1..], true);
    }
  }

  /** One word gives its upper-cased first character. */
  lemma InitialsOfOneWord(word: string)
    requires word != "" && ' ' !in word
    ensures GetInitials(Some(word)) == [UpperChar(word[0])]
  {
    SplitWithoutSpace(word);
    assert FirstChars([word]) == [word[0]] + FirstChars([]);
    assert Upper([word[0]]) == [UpperChar(word[0])];
  }
}

=== FILE: common.dfy ===
/** Generic building blocks shared by the chat model: optional values, results,
    order-preserving filtering, de-duplication and first-match search over
    sequences (the in-memory stand-ins for the hosted tables and queries). */
module Common {

  /** A value that may be absent: `undefined`/`null` in JavaScript. */
  datatype Option<+T> = None | Some(value: T)

  /** The outcome of an operation that may throw. */
  datatype Result<+R, +E> = Success(value: R) | Failure(error: E)

  /** `a` occurs in `b` in the same relative order, possibly with gaps. */
  ghost predicate IsSubsequence<T>(a: seq<T>, b: seq<T>)
    decreases |b|
  {
    || |a| == 0
    || (&& |b| > 0
        && ((a[0] == b[0] && IsSubsequence(a[1..], b[1..])) || IsSubsequence(a, b[1..])))
  }

  /** No element occurs twice. */
  ghost predicate Distinct<T>(s: seq<T>) {
    forall i, j :: 0 <= i < |s| && 0 <= j < |s| && i != j ==> s[i] != s[j]
  }

  /** `Array.prototype.filter`: the elements satisfying `p`, each with its
      multiplicity, in their original order. */
  function Filter<T(!new)>(s: seq<T>, p: T -> bool): (r: seq<T>)
    ensures forall x :: x in r <==> x in s && p(x)
    ensures forall x :: multiset(r)[x] == if p(x) then multiset(s)[x] else 0
    ensures IsSubsequence(r, s)
    ensures |r| <= |s|
  {
    if |s| == 0 then []
    else
      assert s == [s[0]] + s[1..];
      var rest := Filter(s[1..], p);
      if p(s[0]) then [s[0]] + rest else rest
  }

  /** The index of the first element satisfying `p` (a `limit(1)` query or
      `Array.prototype.find`). */
  function FindIndex<T>(s: seq<T>, p: T -> bool): (r: Option<nat>)
    ensures r.Some? ==> r.value < |s| && p(s[r.value])
    ensures r.Some? ==> forall j :: 0 <= j < r.value ==> !p(s[j])
    ensures r.None? <==> forall j :: 0 <= j < |s| ==> !p(s[j])
  {
    if |s| == 0 then None
    else if p(s[0]) then Some(0)
    else
      match FindIndex(s[1..], p)
      case None => None
      case Some(k) => Some(k + 1)
  }

  /** The first element satisfying `p`, if any. */
  function Find<T(!new)>(s: seq<T>, p: T -> bool): (r: Option<T>)
    ensures r.Some? ==> r.value in s && p(r.value)
    ensures r.Some? ==> exists k :: 0 <= k < |s| && s[k] == r.value && forall j :: 0 <= j < k ==> !p(s[j])
    ensures r.None? <==> forall x :: x in s ==> !p(x)
  {
    match FindIndex(s, p)
    case None => None
    case Some(k) => Some(s[k])
  }

  /** The first element satisfying `p` is the head of the filtered sequence. */
  lemma {:induction false} FindIsFilterHead<T(!new)>(s: seq<T>, p: T -> bool)
    ensures Find(s, p).Some? <==> |Filter(s, p)| > 0
    ensures |Filter(s, p)| > 0 ==> Find(s, p) == Some(Filter(s, p)[0])
  {
    if |s| > 0 && !p(s[0]) {
      FindIsFilterHead(s[1..], p);
      assert Find(s, p) == Find(s[1..], p);
    }
  }

  /** `Array.from(new Set(s))`: every element once, first occurrences kept. */
  function Dedup<T(==,!new)>(s: seq<T>): (r: seq<T>)
    ensures forall x :: x in r <==> x in s
    ensures Distinct(r)
    ensures |r| <= |s|
  {
    if |s| == 0 then []
    else
      var prefix := Dedup(s[..|s| - 1]);
      assert s == s[..|s| - 1] + [s[|s| - 1]];
      if s[|s| - 1] in prefix then prefix else prefix + [s[|s| - 1]]
  }

  /** A sequence without repetitions has as many elements as its set. */
  lemma {:induction false} DistinctCardinality<T>(s: seq<T>)
    requires Distinct(s)
    ensures |set x | x in s| == |s|
  {
    if |s| > 0 {
      var tail := s[1..];
      assert Distinct(tail) by {
        forall i, j | 0 <= i < |tail| && 0 <= j < |tail| && i != j
          ensures tail[i] != tail[j]
        {
          assert tail[i] == s[i + 1] && tail[j] == s[j + 1];
        }
      }
      DistinctCardinality(tail);
      assert s[0] !in tail by {
        forall k | 0 <= k < |tail| ensures tail[k] != s[0] {
          assert tail[k] == s[k + 1];
        }
      }
      assert (set x | x in s) == (set x | x in tail) + {s[0]} by {
        assert s == [s[0]] + tail;
      }
    }
  }

  /** Every sequence is a subsequence of itself. */
  lemma {:induction false} SubsequenceReflexive<T>(s: seq<T>)
    ensures IsSubsequence(s, s)
  {
    if |s| > 0 {
      SubsequenceReflexive(s[1..]);
    }
  }

  /** Filtering distributes over appending one element. */
  lemma {:induction false} FilterAppend<T(!new)>(s: seq<T>, x: T, p: T -> bool)
    ensures Filter(s + [x], p) == Filter(s, p) + (if p(x) then [x] else [])
  {
    var t := s + [x];
    if |s| == 0 {
      assert t == [x];
      assert t[1..] == [];
    } else {
      assert t[0] == s[0] && t[1..] == s[1..] + [x];
      FilterAppend(s[1..], x, p);
    }
  }
}

=== FILE: text.dfy ===
/** The JavaScript string operations the chat code relies on, over `string`
    (a sequence of Unicode scalar values): `trim`, `split(" ")`, `join(" ")`,
    upper-casing (ASCII letters only) and taking the text before the first '@'. */
module Text {

  /** The code points `String.prototype.trim` removes: the ECMAScript
      WhiteSpace and LineTerminator productions. */
  predicate IsSpace(c: char) {
    || c == '\t' || c == '\n' || c == '\U{000B}' || c == '\U{000C}' || c == '\r'
    || c == ' ' || c == '\U{00A0}' || c == '\U{1680}'
    || ('\U{2000}' <= c <= '\U{200A}')
    || c == '\U{2028}' || c == '\U{2029}' || c == '\U{202F}' || c == '\U{205F}'
    || c == '\U{3000}' || c == '\U{FEFF}'
  }

  /** Leading white space removed: what is left is a suffix of `s`. */
  function TrimStart(s: string): (r: string)
    ensures |r| <= |s| && r == s[|s| - |r|..]
    ensures forall i :: 0 <= i < |s| - |r| ==> IsSpace(s[i])
    ensures |r| > 0 ==> !IsSpace(r[0])
  {
    if |s| > 0 && IsSpace(s[0]) then TrimStart(s[1..]) else s
  }

  /** Trailing white space removed: what is left is a prefix of `s`. */
  function TrimEnd(s: string): (r: string)
    ensures |r| <= |s| && r == s[..|r|]
    ensures forall i :: |r| <= i < |s| ==> IsSpace(s[i])
    ensures |r| > 0 ==> !IsSpace(r[|r| - 1])
  {
    if |s| > 0 && IsSpace(s[|s| - 1]) then TrimEnd(s[..|s| - 1]) else s
  }

  /** `s.trim()`: a middle stretch of `s`, with only white space cut off on
      either side, that neither starts nor ends with white space. */
  function Trim(s: string): (r: string)
    ensures exists i, j :: (&& 0 <= i <= j <= |s| && r == s[i..j]
      && (forall k :: 0 <= k < i ==> IsSpace(s[k]))
      && (forall k :: j <= k < |s| ==> IsSpace(s[k])))
    ensures |r| > 0 ==> !IsSpace(r[0]) && !IsSpace(r[|r| - 1])
  {
    TrimEndOfSuffix(s, TrimStart(s));
    TrimEnd(TrimStart(s))
  }

  /** Trimming the end of a suffix `t` of `s` cuts a middle stretch out of `s`
      whose right-hand remainder is white space. */
  lemma TrimEndOfSuffix(s: string, t: string)
    requires |t| <= |s| && t == s[|s| - |t|..]
    ensures var i, r := |s| - |t|, TrimEnd(t);
      && r == s[i..i + |r|]
      && forall k :: i + |r| <= k < |s| ==> IsSpace(s[k])
  {
    var i, r := |s| - |t|, TrimEnd(t);
    forall k | i + |r| <= k < |s| ensures IsSpace(s[k]) {
      assert s[k] == t[k - i];
    }
  }

  /** `!s.trim()`: the trimmed text is the (falsy) empty string. */
  predicate IsBlank(s: string) {
    Trim(s) == ""
  }

  /** A string is blank exactly when every character of it is white space. */
  lemma BlankIffAllSpace(s: string)
    ensures IsBlank(s) <==> forall i :: 0 <= i < |s| ==> IsSpace(s[i])
  {
    var t := TrimStart(s);
    if exists k :: 0 <= k < |s| && !IsSpace(s[k]) {
      var k :| 0 <= k < |s| && !IsSpace(s[k]);
      assert k >= |s| - |t|;
      assert t[k - (|s| - |t|)] == s[k];
    }
  }

  /** `s.split(" ")`: the pieces between single U+0020 spaces; consecutive
      spaces yield empty pieces, and there is always at least one piece. */
  function SplitOnSpace(s: string): (parts: seq<string>)
    ensures |parts| >= 1
    ensures forall i :: 0 <= i < |parts| ==> ' ' !in parts[i]
  {
    if |s| == 0 then [""]
    else
      var rest := SplitOnSpace(s[1..]);
      if s[0] == ' ' then [""] + rest
      else [[s[0]] + rest[0]] + rest[1..]
  }

  /** `parts.join(" ")`. */
  function JoinWithSpace(parts: seq<string>): string {
    if |parts| == 0 then ""
    else if |parts| == 1 then parts[0]
    else parts[0] + " " + JoinWithSpace(parts[1..])
  }

  /** Joining the pieces of a split gives back the original string. */
  lemma {:induction false} JoinSplit(s: string)
    ensures JoinWithSpace(SplitOnSpace(s)) == s
  {
    if |s| > 0 {
      var rest := SplitOnSpace(s[1..]);
      JoinSplit(s[1..]);
      if s[0] == ' ' {
        assert SplitOnSpace(s) == [""] + rest;
        assert ([""] + rest)[1..] == rest;
        assert s == " " + s[1..];
      } else if |rest| == 1 {
        assert s == [s[0]] + rest[0];
      } else {
        var parts := SplitOnSpace(s);
        assert parts[1..] == rest[1..];
        assert s == [s[0]] + (rest[0] + " " + JoinWithSpace(rest[1..]));
      }
    }
  }

  /** A string without spaces splits into itself alone. */
  lemma {:induction false} SplitWithoutSpace(t: string)
    requires ' ' !in t
    ensures SplitOnSpace(t) == [t]
  {
    if |t| > 0 {
      assert ' ' !in t[1..];
      SplitWithoutSpace(t[1..]);
      assert t == [t[0]] + t[1..];
    }
  }

  /** Splitting a space-free piece followed by a space peels that piece off. */
  lemma {:induction false} SplitAfterPiece(a: string, t: string)
    requires ' ' !in a
    ensures SplitOnSpace(a + " " + t) == [a] + SplitOnSpace(t)
  {
    if |a| == 0 {
      assert (a + " " + t)[1..] == t;
    } else {
      assert ' ' !in a[1..];
      SplitAfterPiece(a[1..], t);
      assert (a + " " + t)[1..] == a[1..] + " " + t;
      assert a == [a[0]] + a[1..];
    }
  }

  /** Splitting a join of space-free pieces gives back the pieces. */
  lemma {:induction false} SplitJoin(parts: seq<string>)
    requires |parts| >= 1
    requires forall i :: 0 <= i < |parts| ==> ' ' !in parts[i]
    ensures SplitOnSpace(JoinWithSpace(parts)) == parts
  {
    if |parts| == 1 {
      SplitWithoutSpace(parts[0]);
    } else {
      SplitJoin(parts[1..]);
      SplitAfterPiece(parts[0], JoinWithSpace(parts[1..]));
      assert parts == [parts[0]] + parts[1..];
    }
  }

  /** `part[0]` for every part, joined: an empty part contributes `undefined`,
      which `join` renders as nothing. */
  function FirstChars(parts: seq<string>): (r: string)
    ensures |r| <= |parts|
    ensures forall c :: c in r ==> exists k :: 0 <= k < |parts| && |parts[k]| > 0 && c == parts[k][0]
    ensures (forall k :: 0 <= k < |parts| ==> |parts[k]| > 0) ==>
      |r| == |parts| && forall k :: 0 <= k < |parts| ==> r[k] == parts[k][0]
  {
    if |parts| == 0 then ""
    else (if |parts[0]| > 0 then [parts[0][0]] else "") + FirstChars(parts[1..])
  }

  /** Reference definition: the characters of `s` that begin a run of
      non-space characters, left to right. `atStart` says whether the
      previous character was a space (or there was none). */
  function WordStarts(s: string, atStart: bool): string {
    if |s| == 0 then ""
    else (if atStart && s[0] != ' ' then [s[0]] else "") + WordStarts(s[1..], s[0] == ' ')
  }

  /** The first characters of the split pieces are exactly the word starts;
      the pieces after the first one account for the word starts that follow
      a space. */
  lemma {:induction false} FirstCharsOfSplit(s: string)
    ensures FirstChars(SplitOnSpace(s)) == WordStarts(s, true)
    ensures FirstChars(SplitOnSpace(s)[1..]) == WordStarts(s, false)
  {
    if |s| > 0 {
      var rest := SplitOnSpace(s[1..]);
      FirstCharsOfSplit(s[1..]);
      if s[0] == ' ' {
        assert SplitOnSpace(s) == [""] + rest;
        assert ([""] + rest)[1..] == rest;
      } else {
        var parts := SplitOnSpace(s);
        assert parts[0] == [s[0]] + rest[0];
        assert parts[1..] == rest[1..];
        assert rest == [rest[0]] + rest[1..];
      }
    }
  }

  /** Word starts are never spaces and never outnumber the characters. */
  lemma {:induction false} WordStartsShape(s: string, atStart: bool)
    ensures |WordStarts(s, atStart)| <= |s|
    ensures ' ' !in WordStarts(s, atStart)
  {
    if |s| > 0 {
      WordStartsShape(s[1..], s[0] == ' ');
    }
  }

  /** `toUpperCase` on one character, for the ASCII letters; every other
      character is left as it is. */
  function UpperChar(c: char): (u: char)
    ensures 'a' <= c <= 'z' ==> 'A' <= u <= 'Z' && u as int == c as int - 32
    ensures !('a' <= c <= 'z') ==> u == c
  {
    if 'a' <= c <= 'z' then (c as int - 32) as char else c
  }

  /** `s.toUpperCase()` under the ASCII restriction: a character-wise map. */
  function Upper(s: string): (r: string)
    ensures |r| == |s|
    ensures forall i :: 0 <= i < |s| ==> r[i] == UpperChar(s[i])
  {
    seq(|s|, i requires 0 <= i < |s| => UpperChar(s[i]))
  }

  /** `s.substring(0, n)`. */
  function Prefix(s: string, n: nat): (r: string)
    ensures |r| == if |s| <= n then |s| else n
    ensures r <= s
  {
    if |s| <= n then s else s[..n]
  }

  /** `s.split('@')[0]`: the text before the first '@', or all of `s`. */
  function BeforeAt(s: string): (r: string)
    ensures r <= s
    ensures '@' !in r
    ensures |r| < |s| ==> s[|r|] == '@'
  {
    if |s| == 0 || s[0] == '@' then "" else [s[0]] + BeforeAt(s[1..])
  }
}
